=== FILE: README.md ===
# PyCatan benchmark scripts — a Dafny model

PyCatan ships two benchmark scripts that measure how well a Catan-playing
agent performs. `benchmark_vs_agentes_estandar.py` plays each evaluated agent
against every ordered triple of three distinct reference agents, in each of
the four seats, ten times per seat. `benchmark_vs_random.py` plays it 1000
times in each seat against three random agents. Each script defines its own
`simulate_match`, and the two are near-copies. The estandar one takes the
opponents as a parameter, while the random one always seats `[ra, ra, ra]` and
logs more when it catches an exception. Both do the following:

1. Build the agent from its constructor parameters.
2. Seat it among its opponents.
3. Run the game engine.
4. Read the final victory points from the last turn of the last round of the
   engine's trace.
5. Turn them into a `(victory, points, rank)` outcome. Any exception along the
   way becomes the fallback `(0, 0, 4)`.

The scripts then fold the outcomes into per-agent counters, in whatever order
the worker processes finish them. Finally they print a summary: win ratio,
mean points and mean place.

The model is organised in the following modules, one per file:

| module | file | what it holds |
|---|---|---|
| `Wrappers` | `wrappers.dfy` | `Option` |
| `Dicts` | `dicts.dfy` | Python dicts as sequences of key/value pairs with distinct keys, so insertion order stays visible; it decides ties |
| `IntText` | `int_text.dfy` | Python's `int()` on text without underscores, and `str()` on integers |
| `MaxSelect` | `max_select.dfy` | `max(…, key=…)`, which keeps the first maximal item |
| `StableSort` | `stable_sort.dfy` | the stable descending `sorted(…, reverse=True)` |
| `TraceKeys` | `trace_keys.dfy` | choosing the last round and the last turn of a trace by the numeric suffix of their keys |
| `Standings` | `standings.dfy` | victory, points and rank of one seat, from the victory-point mapping |
| `MatchRunner` | `match_runner.dfy` | both scripts' `simulate_match`: parameter-shape dispatch, seat insertion, trace reading, fallback |
| `Schedule` | `schedule.dfy` | the estandar script's permutations and task generator, result keys and match counts |
| `Aggregate` | `aggregate.dfy` | the counters and the fold of outcomes into them |
| `Arith` | `arith.dfy` | small multiplication and division facts |
| `Estandar` | `estandar.dfy` | the estandar script's batch-and-drain loop, progress lines and summary |
| `VsRandom` | `vs_random.dfy` | the random script's per-seat loop and summary |

Several parts of the scripts are parameters of the model rather than code in
it:

- **The engine** (`GameDirector`) is a function `Engine`. It takes a draw
  number, the seats, the round cap and the trace flag, and returns a game log,
  or None when it raises. The draw number stands for the engine's randomness,
  so different matches can have different results.
- **The agents** are a type parameter `A`.
- **Loading a class by path** (`cargar_agente`) is a function `load`.
- **Converting parameters to text** (`str(params)`) is a function `show`.
- **Completion order** (`as_completed`) is a function `completion`. The only
  thing required of it is that it returns a permutation of the batch it is
  given.

Some edge cases of the code, and what the model says about them:

- **Fewer than three reference agents.** Such a roster is not rejected.
  `itertools.permutations` yields nothing, so no match is played, and the model
  proves `|Triples(n)| == 0` for `n < 3`.
- **Summary with nothing to divide by.** When there are results but no matches
  per agent, building the summary divides by zero. `Estandar.Summary` returns
  None exactly in that case.
- **A parameter value that is neither a list/tuple nor a dict.** It raises
  its `TypeError` inside each match's `try`, so every such match ends as the
  fallback outcome.
- **A dict with a key that is not a string.** Unpacking it with `**params`
  raises a `TypeError`, also inside the `try`, so the match ends as the
  fallback too. `Keyword` holds only string keys, so the model represents
  such a dict by `Unsupported`, which gives the same fallback.

## Model

| member | source | states |
|---|---|---|
| Dicts.Get | benchmark_vs_agentes_estandar.py:76 | `d[k]` is None (KeyError) exactly when `k` is not a key, and otherwise the value stored under `k` |
| IntText.ParseInt | benchmark_vs_agentes_estandar.py:71 | `int(s)` succeeds exactly when `s` is an optionally signed run of decimal digits once the whitespace `int()` skips is stripped from both ends. That whitespace is the ASCII `\t \n \v \f \r` and space, plus the non-ASCII spaces CPython maps to a space; U+001C to U+001F are not stripped |
| IntText.ParseIntRoundTrip | benchmark_vs_agentes_estandar.py:71-72 | `int(str(n)) == n` for every integer `n`, so a key built from a number reads back as that number |
| IntText.IntToStringInjective | benchmark_vs_agentes_estandar.py:75 | distinct integers print differently |
| Standings.SeatIdInjective | benchmark_vs_agentes_estandar.py:75 | two positions share the seat id `J{position}` only if they are equal |
| MaxSelect.FirstMax | benchmark_vs_agentes_estandar.py:77 | `max` returns the first index holding the greatest value: nothing after it is greater, and everything before it is strictly smaller |
| MaxSelect.FirstMaxUnique | benchmark_vs_agentes_estandar.py:77 | at most one index is the first maximum, so a tie is always broken in favour of the earliest |
| StableSort.SortDesc | benchmark_vs_agentes_estandar.py:80 | the sorted list is a permutation of the input, of the same length, in non-increasing key order |
| StableSort.InsertKeepsOrder | benchmark_vs_agentes_estandar.py:80 | inserting into a descending list keeps it descending |
| StableSort.InsertMultiset | benchmark_vs_agentes_estandar.py:80 | one insertion step adds the new item and nothing else |
| StableSort.SortDescKeepsSorted | benchmark_vs_agentes_estandar.py:80 | stability, as a caller can see it: a list already in order comes back unchanged, tied items included |
| TraceKeys.LastSegment | benchmark_vs_agentes_estandar.py:71 | `s.split("_")[-1]` is the suffix of `s` that contains no `_` and is either all of `s` or preceded by `_` |
| TraceKeys.LStrip | benchmark_vs_agentes_estandar.py:72 | `s.lstrip(c)` drops exactly the leading run of `c` and keeps the rest unchanged |
| TraceKeys.LastSegmentAfterUnderscore | benchmark_vs_agentes_estandar.py:71 | the text after the final `_` of `prefix_seg` is `seg` |
| TraceKeys.RoundKeyNumber | benchmark_vs_agentes_estandar.py:71 | a round key `<prefix>_<n>` is ordered by the integer `n` |
| TraceKeys.TurnKeyNumber | benchmark_vs_agentes_estandar.py:72 | a turn key `<prefix>_PP…P<n>` is ordered by `n`, however many `P`s precede it |
| TraceKeys.KeyNumberIgnoresPrefix | benchmark_vs_agentes_estandar.py:71-72 | a key's number depends only on its text after the final `_`; replacing what comes before that underscore leaves the number unchanged |
| TraceKeys.Numbers | benchmark_vs_agentes_estandar.py:71-72 | the key function is applied to every key; the list of numbers exists exactly when every key has one |
| TraceKeys.MaxBy | benchmark_vs_agentes_estandar.py:71-72 | `max(keys, key=num)` fails exactly on an empty level or a key with no number; otherwise it picks the first key with the greatest number |
| TraceKeys.SelectLast | benchmark_vs_agentes_estandar.py:71-72 | the last round or turn is the first key whose numeric suffix is greatest; the selection fails exactly on an empty level or a suffix that is not an integer |
| TraceKeys.EntryUnder | benchmark_vs_agentes_estandar.py:71-73 | the value read is the one under a key whose number is the greatest and which no earlier key matches; it is None exactly when `max` raises |
| TraceKeys.LaterKeySelected | benchmark_vs_agentes_estandar.py:71 | of two keys where the second has the greater number, `max` picks the second |
| TraceKeys.LaterRoundSelected | benchmark_vs_agentes_estandar.py:71 | of two round keys, the round with the greater number is selected |
| TraceKeys.NumericNotLexicographic | benchmark_vs_agentes_estandar.py:71 | of `round_9` and `round_10`, `round_10` is selected, although `"round_9"` is the greater text |
| TraceKeys.NonNumericSuffixFails | benchmark_vs_agentes_estandar.py:71-72 | one key without a numeric suffix, anywhere in the level, makes the selection fail |
| TraceKeys.SelectLastIsFirstMax | benchmark_vs_agentes_estandar.py:71-72 | the selection is the first maximum of the keys' numbers, the index `max` scans to |
| TraceKeys.LastEntryIsSelected | benchmark_vs_agentes_estandar.py:71-73 | the entry read is the one at the index SelectLast picks |
| Standings.CountAboveSorted | benchmark_vs_agentes_estandar.py:80 | sorting does not change how many seats beat a score |
| Standings.InsertIndexCountsAbove | benchmark_vs_agentes_estandar.py:80 | in a descending ranking, a new entry goes after exactly the entries with strictly more points |
| Standings.AbsentFromRanking | benchmark_vs_agentes_estandar.py:81-85 | a seat missing from the mapping is missing from the sorted ranking too |
| Standings.IndexOfAfterInsert | benchmark_vs_agentes_estandar.py:80 | inserting an entry shifts another key back by one exactly when the new entry lands in front of it |
| Standings.RankIsSeatsAhead | benchmark_vs_agentes_estandar.py:80-85 | a seat's 0-based place in the stable descending sort is the number of earlier seats with at least its points plus later seats with more |
| Standings.RankOfFirstSeat | benchmark_vs_agentes_estandar.py:80-85 | the first seat's place is the number of later seats with strictly more points |
| Standings.RankOfLaterSeat | benchmark_vs_agentes_estandar.py:80-85 | a later seat's place among all seats follows from its place among the seats after the first |
| Standings.RankStep | benchmark_vs_agentes_estandar.py:80 | inserting `x` moves an existing entry back one place exactly when `x` has at least its points |
| Standings.SortedEntryIsOriginal | benchmark_vs_agentes_estandar.py:82-84 | the entry the loop finds under a seat's key in the ranking is that seat's own entry |
| Standings.RankOf | benchmark_vs_agentes_estandar.py:80-85 | the rank is 1 plus the number of seats ahead for a seat present in the mapping, and the default 4 for an absent one |
| Standings.Winner | benchmark_vs_agentes_estandar.py:77 | `max(victory_points, key=…)` returns one of the mapping's seats; WinnerIsFirstMax says which |
| Standings.WinnerIsFirstMax | benchmark_vs_agentes_estandar.py:77-78 | `max(victory_points, key=points)` is the seat at index `p` exactly when `p` is the first index with the top score |
| Standings.AheadZeroIffFirstMax | benchmark_vs_agentes_estandar.py:77-85 | no seat is ahead of a seat exactly when it is the first seat with the top score, so it is ranked first exactly when it won |
| Standings.Score | benchmark_vs_agentes_estandar.py:75-87 | on a missing seat it raises (None); otherwise the points are the seat's, victory is 1 exactly when the seat is the first top scorer, the rank is 1 + seats ahead and lies in 1..number of seats, and victory is 1 exactly when the rank is 1 |
| Standings.TieGoesToEarlierSeat | benchmark_vs_agentes_estandar.py:77-85 | with J0 and J1 tied on top, the seat at position 1 gets victory 0 and rank 2 |
| MatchRunner.Configure | benchmark_vs_agentes_estandar.py:55-63 | the dispatch fails (TypeError) exactly for a parameter value that is neither a list/tuple nor a dict, and always keeps the class |
| MatchRunner.Construct | benchmark_vs_agentes_estandar.py:37-51 | a configured class builds its agent from the class and the identifier the engine gives it |
| MatchRunner.ConfiguredAgentCall | benchmark_vs_agentes_estandar.py:37-63 | a configured agent is built with the engine's identifier first, then the stored positional or keyword parameters, unchanged |
| MatchRunner.InsertIndexOf | benchmark_vs_agentes_estandar.py:66 | `list.insert` clamps its index into the list and uses an in-range index as given |
| MatchRunner.ListInsert | benchmark_vs_agentes_estandar.py:66 | `list.insert` puts the item at the clamped index and keeps the items before and after it in place |
| MatchRunner.Seats | benchmark_vs_agentes_estandar.py:65-66 | the seat list is one longer than the opponents, holds the evaluated agent at `position`, and holds the opponents in their original order elsewhere |
| MatchRunner.FinalVictoryPoints | benchmark_vs_agentes_estandar.py:71-73 | the victory-point mapping can be read exactly when the last round and the last turn can both be selected and that turn has an `end_turn` entry holding `victory_points`; it is then that mapping |
| MatchRunner.ReadsLastTurn | benchmark_vs_agentes_estandar.py:71-73 | the victory points read are those at the end of the last turn of the last round, both chosen by number |
| MatchRunner.RunMatch | benchmark_vs_agentes_estandar.py:54-87 | the body of the `try` raises on an unsupported parameter value; when it does not raise, its outcome is the seat's Score in some victory-point mapping |
| MatchRunner.SimulateMatch | benchmark_vs_agentes_estandar.py:53-91 | every outcome is consistent (victory 0/1, rank at least 1, victory exactly at rank 1); an unsupported parameter value gives exactly the fallback; any other outcome is a real Score |
| MatchRunner.EngineFailureFallsBack | benchmark_vs_agentes_estandar.py:68-69 | an engine that raises yields exactly the fallback `(0, 0, 4)` |
| MatchRunner.MissingSeatFallsBack | benchmark_vs_agentes_estandar.py:76 | a mapping without the seat's id yields exactly the fallback, never a partial result |
| MatchRunner.UnreadableTraceFallsBack | benchmark_vs_agentes_estandar.py:71-73 | a trace whose final victory points cannot be read, for any of the reasons above, makes the match end as exactly the fallback `(0, 0, 4)` |
| MatchRunner.NonNumericRoundUnreadable | benchmark_vs_agentes_estandar.py:71 | one round key anywhere in the trace whose suffix is not an integer makes the victory points unreadable |
| MatchRunner.NonNumericRoundFallsBack | benchmark_vs_agentes_estandar.py:71 | one round key whose suffix is not an integer makes the match end as exactly the fallback |
| MatchRunner.NonNumericTurnFallsBack | benchmark_vs_agentes_estandar.py:72 | one turn key of the last round whose suffix is not an integer once its `P`s are stripped makes the match end as exactly the fallback |
| MatchRunner.MissingEndTurnFallsBack | benchmark_vs_agentes_estandar.py:73 | a last turn without an `end_turn` entry makes the match end as exactly the fallback |
| MatchRunner.ReadableTraceScored | benchmark_vs_agentes_estandar.py:73-87 | a readable trace that holds the seat yields that seat's Score |
| MatchRunner.SimulateVsRandom | benchmark_vs_random.py:40-81 | the random script's match gives a consistent outcome, and the fallback for an unsupported parameter value |
| MatchRunner.RandomTable | benchmark_vs_random.py:52-53 | the random script's table has four seats: the evaluated agent at `position` and the random agent in each other seat |
| Schedule.Choices | benchmark_vs_agentes_estandar.py:102 | the indices below `n` outside a set, each once, in increasing order |
| Schedule.Triples | benchmark_vs_agentes_estandar.py:102 | `itertools.permutations(range(n), 3)` yields exactly the triples of three distinct indices below `n`, in strictly increasing lexicographic order (the order `itertools.permutations` uses), so none repeats |
| Schedule.TriplesCount | benchmark_vs_agentes_estandar.py:102-103 | there are `n (n-1) (n-2)` triples, none at all for a roster of fewer than three |
| Schedule.Perms | benchmark_vs_agentes_estandar.py:102 | the permutation list names, in order, the opponents of each enumerated triple |
| Schedule.ResultKey | benchmark_vs_agentes_estandar.py:94 | the result key starts with the class path and is just the path when there are no parameters |
| Schedule.GenerateTasks | benchmark_vs_agentes_estandar.py:103-119 | the generator yields exactly `total_matches` tasks |
| Schedule.GeneratedShape | benchmark_vs_agentes_estandar.py:113-119 | every task the generator yields has a seat in 0..3, opponents from the permutation list, and the class, parameters and path of one entry |
| Schedule.GeneratedCoverage | benchmark_vs_agentes_estandar.py:113-119 | every combination of entry `e`, permutation `t`, seat `s` and repetition `r` is yielded, at position `((e·P + t)·4 + s)·reps + r` where the nested loops reach it; with the count, each combination is yielded exactly once and nothing else is |
| Schedule.TasksPerKey | benchmark_vs_agentes_estandar.py:113-124 | with distinct result keys, each entry's key is carried by exactly `partidas_por_agente` tasks |
| Schedule.KeyAbsent | benchmark_vs_agentes_estandar.py:124 | a key that no entry has is carried by no task |
| Aggregate.Add | benchmark_vs_agentes_estandar.py:132-134 | the three `+=` lines add exactly the one outcome's totals |
| Aggregate.TotalConcat | benchmark_vs_agentes_estandar.py:128-147 | the totals of two stretches of outcomes add up |
| Aggregate.TotalPermutation | benchmark_vs_agentes_estandar.py:129-134 | the totals of a list of outcomes do not depend on its order |
| Aggregate.TotalBounds | benchmark_vs_agentes_estandar.py:132-134 | with consistent outcomes, the wins lie between 0 and the number of matches; with every rank in 1..4, the rank sum lies between that number and four times it |
| Aggregate.Record | benchmark_vs_agentes_estandar.py:131-134 | recording an outcome keeps the keys, adds it under its own key and leaves every other entry unchanged |
| Aggregate.RecordOthersUnchanged | benchmark_vs_agentes_estandar.py:131-134 | looking up any other key after recording gives the same answer as before |
| Aggregate.FoldAll | benchmark_vs_agentes_estandar.py:128-134 | folding the completed matches in keeps exactly the keys the results started with |
| Aggregate.CountsFromZero | benchmark_vs_agentes_estandar.py:94-134 | when every counter starts at zero, as the results dict is created, each key ends holding exactly the totals of the outcomes filed under it |
| Aggregate.FoldAllCounts | benchmark_vs_agentes_estandar.py:128-134 | after the fold each key holds its starting counters plus the totals of exactly the outcomes filed under it |
| Aggregate.FoldOrderIndependent | benchmark_vs_agentes_estandar.py:128-147 | folding the same completed matches in any order gives the same results |
| Aggregate.FoldConcat | benchmark_vs_agentes_estandar.py:127-150 | folding in two batches is folding the whole stream |
| Aggregate.Fresh | benchmark_vs_agentes_estandar.py:94 | the results dict holds zero counters under exactly the entries' keys |
| Aggregate.FreshOrder | benchmark_vs_agentes_estandar.py:94 | the dict comprehension's keys come in the order they first appear among the entries: a repeated key keeps its first place, and this is the order the summary's stable sort breaks ties by |
| Aggregate.OutcomesForPermutation | benchmark_vs_agentes_estandar.py:129-134 | two arrival orders of the same matches file the same totals under every key |
| Aggregate.OutcomesForCount | benchmark_vs_agentes_estandar.py:131 | a key receives one outcome per match filed under it |
| Estandar.Milestones | benchmark_vs_agentes_estandar.py:136-137 | progress lines are printed at exactly the counts that are multiples of 10000 or equal to the total, in increasing order |
| Estandar.Drain | benchmark_vs_agentes_estandar.py:128-138 | one drain folds the batch in completion order, counts each of its matches once and prints progress where due |
| Estandar.DrainPending | benchmark_vs_agentes_estandar.py:127-150 | draining the pending matches in any completion order leaves the results as if every submitted match had been folded in submission order |
| Estandar.RunBatches | benchmark_vs_agentes_estandar.py:122-150 | with the pending list kept below `batch_size` and flushed at the end, every submitted match is folded exactly once, each key ends with its starting counters plus its own outcomes, and progress fires exactly at the due counts |
| Estandar.Play | benchmark_vs_agentes_estandar.py:122-124 | each submitted task is filed under its result key with a consistent outcome |
| Estandar.MakeRow | benchmark_vs_agentes_estandar.py:156-164 | a summary row keeps the key, wins and points, counts `partidas_por_agente` matches, and its ratio, mean points and mean place times that count are the wins, points and rank sum |
| Estandar.Summary | benchmark_vs_agentes_estandar.py:152-166 | the summary fails (ZeroDivisionError) exactly when there are results but no matches per agent; otherwise it is a permutation of the rows, in non-increasing win ratio |
| Estandar.RatioBounds | benchmark_vs_agentes_estandar.py:161 | a win ratio lies in [0, 1] when the wins lie between 0 and the matches played |
| Estandar.WinsWithinMatches | benchmark_vs_agentes_estandar.py:152 | with distinct result keys, each key's wins lie between 0 and `partidas_por_agente` |
| Estandar.RatiosWithinOne | benchmark_vs_agentes_estandar.py:161-166 | every summary ratio lies in [0, 1] once every key's wins are in range |
| Estandar.RunMatches | benchmark_vs_agentes_estandar.py:103-166 | for any list of permutations, the run folds exactly `total_matches` matches, and each key's counters are the totals of exactly the played matches filed under it. The summary is the one built from those counters. Progress is printed at exactly the due counts, including the last. The summary fails exactly when it divides by zero. With distinct keys, every key's wins are bounded by `partidas_por_agente` and every ratio lies in [0, 1] |
| Estandar.Benchmark | benchmark_vs_agentes_estandar.py:94-166 | the whole run over a roster of `n` reference agents, with `n (n-1) (n-2)` permutations, folds exactly `total_matches` matches. Each entry key's counters are the totals of exactly the played matches filed under it, and the summary is the one built from those counters. Progress is printed at exactly the due counts, including the last. The summary fails exactly when it divides by zero. With distinct keys, every key's wins are bounded by `partidas_por_agente` and every ratio lies in [0, 1] |
| VsRandom.Game | benchmark_vs_random.py:104-106 | each game yields a consistent outcome |
| VsRandom.SeatOutcomes | benchmark_vs_random.py:104 | one seat plays exactly `n_matches` games, each with a consistent outcome |
| VsRandom.PlaySeat | benchmark_vs_random.py:105-110 | one seat's loop adds that seat's wins to its counter and its totals to the running totals |
| VsRandom.EvaluateSeats | benchmark_vs_random.py:97-110 | in any completion order, each seat's counter is that seat's wins, the totals are those of all games, and the seat counters add up to the total wins |
| VsRandom.Summarise | benchmark_vs_random.py:112-120 | the summary fails exactly when `n_matches` is 0; otherwise each seat's percentage times `n_matches` is 100 times that seat's wins, it counts `4 * n_matches` games, and its ratio, mean points and mean place times that count are the total wins, points and rank sum |
| VsRandom.SummaryBounds | benchmark_vs_random.py:112-120 | each seat percentage lies in [0, 100], the ratio in [0, 1], and the mean place in [1, 4] once the place sum is in range |
| VsRandom.FlattenLength | benchmark_vs_random.py:103-104 | four seats of `n` games each make `4 n` games |
| VsRandom.ReportRanges | benchmark_vs_random.py:97-120 | from four seats of `n` consistent games each, every seat counter lies in [0, n], the ratio in [0, 1], every percentage in [0, 100], and the mean place in [1, 4] when every place is at most 4 |
| VsRandom.Evaluate | benchmark_vs_random.py:91-120 | each seat counter is the wins of that seat's `n_matches` games, the totals are those of all games played, and the report is the summary of exactly these. There are four seat counters, each between 0 and `n_matches`, adding up to the total wins, and `total_partidas` equals the games played. The ratio lies in [0, 1] and every percentage in [0, 100]. The mean place lies in [1, 4] when every game's place is at most 4 |

## Left out

- The game engine, the agents and their strategies are not part of this model. The engine is a function parameter that returns a game log or fails.
- `cargar_agente` and the runtime subclassing in `crear_clase_agente_configurada*` are Python reflection. A class path is mapped to a class by the parameter `load`, and a configured class is modelled by the constructor call it makes (`Construct`).
- `str(params)` is the parameter `show`; the model does not fix Python's text rendering of lists and dicts.
- The process pool and `as_completed` are left out. Completion order is an arbitrary permutation of each batch (the `completion` parameter), and a pool failure, which would abort the script, is not modelled.
- Worker-count sizing (`cpu_count * 0.95`) and the time estimate (`* 0.004`) are float arithmetic on hardware queries and do not affect the results.
- Timing, console printing, percentage and decimal formatting, and CSV writing are I/O. The progress lines are modelled as the list of counts at which they are printed.
- Python floats are modelled as exact reals; rounding in the divisions is not modelled.
- IntText.ParseInt: does not accept the non-ASCII decimal digits Python's `int()` also accepts, because trace keys are generated by the engine with ASCII digits. Underscores never reach it, since it only ever reads the text after the last `_`. It also does not model CPython's 4300-digit limit on integer conversion (3.11 and later, and the security backports), past which `int()` raises ValueError. The numbers in trace keys are round and turn counts with a few digits.
- IntText.ParseIntRoundTrip: holds for every integer, while CPython's `str(n)` raises ValueError once `n` has more than 4300 digits. The keys it is used for carry round and turn counts of a few digits, far below that limit.
- Victory points are modelled as integers, because the engine's scores are taken to be integers already. The scripts pass each score through `int()`, which truncates a float such as `7.5` to `7`. It raises on text that is not an integer literal, such as `"7.5"`, and on None, infinity or NaN. None of these cases is modelled.
- The outer `for` over the agents to evaluate in `benchmark_vs_random.py` is left out. Each agent is evaluated independently (`VsRandom.Evaluate`), and the loop only collects CSV rows.
- StableSort.SortDescKeepsSorted: stability is stated as "a list already in order comes back unchanged". The general statement about the relative order of tied items is not proved. `Standings.RankIsSeatsAhead` states the consequence the scripts rely on, the exact place of every seat.
- Estandar.Benchmark: the bounds on wins and ratios are stated only when the entries' result keys are distinct. Two entries with the same key share one counter, which then collects twice `partidas_por_agente` matches, so their ratio can exceed 1.
- Estandar.RunMatches: the same restriction to distinct result keys, for the same reason.
- VsRandom.Evaluate: the mean-place bound is stated only when every game's place is at most 4. A trace with more than four seats could rank a seat lower, and the engine is not modelled.

=== FILE: aggregate.dfy ===
/** The per-key counters both scripts keep (`wins`, `points`, `rank_sum`)
    and the fold that adds match outcomes into them, one at a time, in
    whatever order the matches complete. */
module Aggregate {
  import opened Dicts
  import opened Standings

  /** `{'wins': …, 'points': …, 'rank_sum': …}`. */
  datatype Counters = Counters(wins: int, points: int, rankSum: int)

  const Zero := Counters(0, 0, 0)

  function Plus(a: Counters, b: Counters): Counters {
    Counters(a.wins + b.wins, a.points + b.points, a.rankSum + b.rankSum)
  }

  /** What one outcome contributes. */
  function Tally(o: Outcome): Counters {
    Counters(o.victory, o.points, o.rank)
  }

  /** The counters a sequence of outcomes adds up to. */
  function Total(os: seq<Outcome>): Counters
    decreases |os|
  {
    if |os| == 0 then Zero else Plus(Tally(os[0]), Total(os[1..]))
  }

  /** The three `+=` lines for one completed match. */
  function Add(c: Counters, o: Outcome): (r: Counters)
    ensures r == Plus(c, Total([o]))
  {
    Counters(c.wins + o.victory, c.points + o.points, c.rankSum + o.rank)
  }

  lemma {:induction false} TotalConcat(a: seq<Outcome>, b: seq<Outcome>)
    ensures Total(a + b) == Plus(Total(a), Total(b))
    decreases |a|
  {
    if |a| > 0 {
      assert (a + b)[1..] == a[1..] + b;
      TotalConcat(a[1..], b);
    } else {
      assert a + b == b;
    }
  }

  /** The totals depend only on which outcomes arrived, not on the order in
      which they completed. */
  lemma {:induction false} TotalPermutation(a: seq<Outcome>, b: seq<Outcome>)
    requires multiset(a) == multiset(b)
    ensures Total(a) == Total(b)
    decreases |a|
  {
    if |a| > 0 {
      assert a[0] in multiset(b);
      var j :| 0 <= j < |b| && b[j] == a[0];
      var b' := b[..j] + b[j + 1..];
      RemoveMatching(a, b, j);
      TotalPermutation(a[1..], b');
      TotalWithout(b, j);
    } else {
      assert |b| == |multiset(b)| == 0;
    }
  }

  /** Taking the first outcome of `a` and a matching one of `b` off both
      keeps the two multisets equal. */
  lemma RemoveMatching(a: seq<Outcome>, b: seq<Outcome>, j: nat)
    requires multiset(a) == multiset(b)
    requires 0 < |a| && j < |b| && b[j] == a[0]
    ensures multiset(a[1..]) == multiset(b[..j] + b[j + 1..])
  {
    var x := a[0];
    var b' := b[..j] + b[j + 1..];
    assert b == b[..j] + [x] + b[j + 1..];
    assert a == [x] + a[1..];
    assert multiset(b) == multiset(b[..j]) + multiset{x} + multiset(b[j + 1..]);
    assert multiset(b') == multiset(b[..j]) + multiset(b[j + 1..]);
    assert multiset(a) == multiset{x} + multiset(a[1..]);
    forall y ensures multiset(a[1..])[y] == multiset(b')[y] {
      assert multiset(a)[y] == multiset{x}[y] + multiset(a[1..])[y];
      assert multiset(b)[y] == multiset(b[..j])[y] + multiset{x}[y] + multiset(b[j + 1..])[y];
    }
  }

  /** The totals of `b` are those of `b[j]` plus those of the rest. */
  lemma TotalWithout(b: seq<Outcome>, j: nat)
    requires j < |b|
    ensures Total(b) == Plus(Tally(b[j]), Total(b[..j] + b[j + 1..]))
  {
    var front, x, back := b[..j], b[j], b[j + 1..];
    SplitAt(b, j);
    TotalConcat(front, [x] + back);
    TotalCons(x, back);
    TotalConcat(front, back);
  }

  /** A sequence is its prefix, the element at `j`, and its suffix. */
  lemma SplitAt<T>(b: seq<T>, j: nat)
    requires j < |b|
    ensures b == b[..j] + ([b[j]] + b[j + 1..])
  {
  }

  lemma TotalCons(x: Outcome, s: seq<Outcome>)
    ensures Total([x] + s) == Plus(Tally(x), Total(s))
  {
    assert ([x] + s)[1..] == s;
  }

  /** With every outcome consistent, the wins lie between 0 and the number
      of matches; with every rank in 1..4, so does the rank sum between
      one and four times that number. */
  lemma {:induction false} TotalBounds(os: seq<Outcome>)
    requires forall m :: 0 <= m < |os| ==> ValidOutcome(os[m])
    ensures 0 <= Total(os).wins <= |os|
    ensures (forall m :: 0 <= m < |os| ==> os[m].rank <= 4) ==> |os| <= Total(os).rankSum <= 4 * |os|
    decreases |os|
  {
    if |os| > 0 {
      TotalBounds(os[1..]);
      assert forall m :: 0 <= m < |os[1..]| ==> os[1..][m] == os[m + 1];
    }
  }

  /** The results dictionary: counters by result key, in insertion order. */
  type Results = Dict<string, Counters>

  /** `results[k]` after adding one outcome under key `k`. */
  function Record(d: Results, k: string, o: Outcome): (r: Results)
    requires k in Keys(d)
    ensures Keys(r) == Keys(d)
    ensures forall i :: 0 <= i < |d| ==> r[i].1 == if d[i].0 == k then Add(d[i].1, o) else d[i].1
  {
    var i := IndexOf(d, k);
    var r := d[i := (k, Add(d[i].1, o))];
    assert Keys(r) == Keys(d);
    r
  }

  /** The outcomes filed under key `k`, in arrival order. */
  function OutcomesFor(stream: seq<(string, Outcome)>, k: string): (os: seq<Outcome>)
    ensures |os| <= |stream|
    decreases |stream|
  {
    if |stream| == 0 then []
    else (if stream[0].0 == k then [stream[0].1] else []) + OutcomesFor(stream[1..], k)
  }

  /** Every key of the stream is a key of the dictionary. */
  predicate KeysKnown(d: Results, stream: seq<(string, Outcome)>) {
    forall m :: 0 <= m < |stream| ==> stream[m].0 in Keys(d)
  }

  /** Folding the completed matches into the results one at a time. */
  function FoldAll(d: Results, stream: seq<(string, Outcome)>): (r: Results)
    requires KeysKnown(d, stream)
    ensures Keys(r) == Keys(d)
    decreases |stream|
  {
    if |stream| == 0 then d
    else FoldAll(Record(d, stream[0].0, stream[0].1), stream[1..])
  }

  /** After the fold, every key holds its starting counters plus exactly the
      outcomes filed under it; a key nothing was filed under is unchanged. */
  lemma {:induction false} FoldAllCounts(d: Results, stream: seq<(string, Outcome)>)
    requires KeysKnown(d, stream)
    ensures forall i :: 0 <= i < |d| ==>
      FoldAll(d, stream)[i].1 == Plus(d[i].1, Total(OutcomesFor(stream, d[i].0)))
    decreases |stream|
  {
    if |stream| > 0 {
      var d1 := Record(d, stream[0].0, stream[0].1);
      assert KeysKnown(d1, stream[1..]);
      FoldAllCounts(d1, stream[1..]);
      forall i | 0 <= i < |d|
        ensures FoldAll(d, stream)[i].1 == Plus(d[i].1, Total(OutcomesFor(stream, d[i].0)))
      {
        assert d1[i].0 == d[i].0 by {
          assert Keys(d1)[i] == Keys(d)[i];
        }
        var rest := OutcomesFor(stream[1..], d[i].0);
        if d[i].0 == stream[0].0 {
          assert OutcomesFor(stream, d[i].0) == [stream[0].1] + rest;
          assert Total([stream[0].1] + rest) == Plus(Tally(stream[0].1), Total(rest)) by {
            assert ([stream[0].1] + rest)[1..] == rest;
          }
        } else {
          assert OutcomesFor(stream, d[i].0) == rest;
        }
      }
    }
  }

  /** `multiset` view of the filter: an outcome is filed under `k` as often
      as the pair `(k, outcome)` arrived. */
  lemma {:induction false} OutcomesForMultiset(stream: seq<(string, Outcome)>, k: string, o: Outcome)
    ensures multiset(OutcomesFor(stream, k))[o] == multiset(stream)[(k, o)]
    decreases |stream|
  {
    if |stream| > 0 {
      OutcomesForMultiset(stream[1..], k, o);
      assert stream == [stream[0]] + stream[1..];
    }
  }

  /** Two arrival orders of the same matches file the same outcomes under
      every key. */
  lemma OutcomesForPermutation(a: seq<(string, Outcome)>, b: seq<(string, Outcome)>, k: string)
    requires multiset(a) == multiset(b)
    ensures Total(OutcomesFor(a, k)) == Total(OutcomesFor(b, k))
  {
    forall o ensures multiset(OutcomesFor(a, k))[o] == multiset(OutcomesFor(b, k))[o] {
      OutcomesForMultiset(a, k, o);
      OutcomesForMultiset(b, k, o);
    }
    assert multiset(OutcomesFor(a, k)) == multiset(OutcomesFor(b, k));
    TotalPermutation(OutcomesFor(a, k), OutcomesFor(b, k));
  }

  /** Order independence: the final counters do not depend on the order in
      which the matches complete. */
  lemma FoldOrderIndependent(d: Results, a: seq<(string, Outcome)>, b: seq<(string, Outcome)>)
    requires KeysKnown(d, a)
    requires multiset(a) == multiset(b)
    ensures KeysKnown(d, b)
    ensures FoldAll(d, a) == FoldAll(d, b)
  {
    forall m | 0 <= m < |b| ensures b[m].0 in Keys(d) {
      assert b[m] in multiset(a);
      var j :| 0 <= j < |a| && a[j] == b[m];
    }
    FoldAllCounts(d, a);
    FoldAllCounts(d, b);
    var ra, rb := FoldAll(d, a), FoldAll(d, b);
    forall i | 0 <= i < |d| ensures ra[i] == rb[i] {
      OutcomesForPermutation(a, b, d[i].0);
      assert ra[i].0 == Keys(ra)[i] == Keys(d)[i] == Keys(rb)[i] == rb[i].0;
    }
  }

  /** Folding in two stretches is folding the whole. */
  lemma {:induction false} FoldConcat(d: Results, a: seq<(string, Outcome)>, b: seq<(string, Outcome)>)
    requires KeysKnown(d, a + b)
    ensures KeysKnown(d, a) && KeysKnown(FoldAll(d, a), b)
    ensures FoldAll(d, a + b) == FoldAll(FoldAll(d, a), b)
    decreases |a|
  {
    assert forall m :: 0 <= m < |a| ==> a[m] == (a + b)[m];
    assert forall m :: 0 <= m < |b| ==> b[m] == (a + b)[|a| + m];
    if |a| > 0 {
      assert (a + b)[1..] == a[1..] + b;
      FoldConcat(Record(d, a[0].0, a[0].1), a[1..], b);
    } else {
      assert a + b == b;
    }
  }

  /** Recording one outcome touches only its own key. */
  lemma RecordOthersUnchanged(d: Results, k: string, o: Outcome, other: string)
    requires k in Keys(d) && other != k
    ensures Get(Record(d, k, o), other) == Get(d, other)
  {
    var r := Record(d, k, o);
    if other in Keys(d) {
      var i :| 0 <= i < |d| && d[i].0 == other;
      assert r[i].0 == Keys(r)[i];
    }
  }

  /** Where `x` first occurs in `xs`. */
  function FirstPlace(xs: seq<string>, x: string): (i: nat)
    requires x in xs
    ensures i < |xs| && xs[i] == x
    ensures forall j :: 0 <= j < i ==> xs[j] != x
  {
    if xs[0] == x then 0 else 1 + FirstPlace(xs[1..], x)
  }

  /** Dropping the last element leaves the first place of every earlier
      element where it was. */
  lemma FirstPlaceInit(xs: seq<string>, x: string)
    requires |xs| > 0 && x in xs[..|xs| - 1]
    ensures FirstPlace(xs, x) == FirstPlace(xs[..|xs| - 1], x)
  {
    var init := xs[..|xs| - 1];
    var i := FirstPlace(init, x);
    assert xs[i] == init[i];
    var j := FirstPlace(xs, x);
    assert init[j] == xs[j];
  }

  /** An element that only the last place holds first occurs there. */
  lemma FirstPlaceLast(xs: seq<string>)
    requires |xs| > 0 && xs[|xs| - 1] !in xs[..|xs| - 1]
    ensures FirstPlace(xs, xs[|xs| - 1]) == |xs| - 1
  {
    assert forall k :: 0 <= k < |xs| - 1 ==> xs[..|xs| - 1][k] == xs[k];
  }

  /** The fresh results dictionary: zero counters under each key, in the
      order the keys first appear (a repeated key keeps its first place). */
  function Fresh(keys: seq<string>): (d: Results)
    ensures forall k :: k in Keys(d) <==> k in keys
    ensures forall i :: 0 <= i < |d| ==> d[i].1 == Zero
    decreases |keys|
  {
    if |keys| == 0 then []
    else
      var prev := Fresh(keys[..|keys| - 1]);
      var k := keys[|keys| - 1];
      assert forall x :: x in keys <==> x in keys[..|keys| - 1] || x == k by {
        assert keys == keys[..|keys| - 1] + [k];
      }
      if k in Keys(prev) then prev
      else
        var d := prev + [(k, Zero)];
        assert forall i :: 0 <= i < |prev| ==> prev[i].0 in Keys(prev);
        assert Keys(d) == Keys(prev) + [k];
        d
  }

  /** `ks` lists keys of `keys` in the order they first appear there. */
  predicate InFirstOrder(keys: seq<string>, ks: seq<string>) {
    forall i, j :: 0 <= i < j < |ks| ==>
      ks[i] in keys && ks[j] in keys && FirstPlace(keys, ks[i]) < FirstPlace(keys, ks[j])
  }

  /** Fresh lists the keys in the order they first appear: of two keys, the
      one met first in `keys` comes first, whatever repeats follow. */
  lemma {:induction false} FreshOrder(keys: seq<string>)
    ensures InFirstOrder(keys, Keys(Fresh(keys)))
    decreases |keys|
  {
    if |keys| > 0 {
      var init := keys[..|keys| - 1];
      var last := keys[|keys| - 1];
      var prev := Fresh(init);
      FreshOrder(init);
      assert forall i :: 0 <= i < |prev| ==> Keys(prev)[i] in init;
      FreshOrderStep(keys, Keys(prev));
      if last !in Keys(prev) {
        assert Keys(Fresh(keys)) == Keys(prev) + [last];
      }
    }
  }

  /** The order step of Fresh: the earlier keys keep their first places, and
      a key new at the end comes after all of them. */
  lemma FreshOrderStep(keys: seq<string>, prev: seq<string>)
    requires |keys| > 0
    requires forall i :: 0 <= i < |prev| ==> prev[i] in keys[..|keys| - 1]
    requires keys[|keys| - 1] in keys[..|keys| - 1] ==> keys[|keys| - 1] in prev
    requires InFirstOrder(keys[..|keys| - 1], prev)
    ensures InFirstOrder(keys, prev)
    ensures keys[|keys| - 1] !in prev ==> InFirstOrder(keys, prev + [keys[|keys| - 1]])
  {
    var init := keys[..|keys| - 1];
    var last := keys[|keys| - 1];
    forall i, j | 0 <= i < j < |prev|
      ensures prev[i] in keys && prev[j] in keys && FirstPlace(keys, prev[i]) < FirstPlace(keys, prev[j])
    {
      FirstPlaceInit(keys, prev[i]);
      FirstPlaceInit(keys, prev[j]);
    }
    if last !in prev {
      FirstPlaceLast(keys);
      var ext := prev + [last];
      forall i, j | 0 <= i < j < |ext|
        ensures ext[i] in keys && ext[j] in keys && FirstPlace(keys, ext[i]) < FirstPlace(keys, ext[j])
      {
        FirstPlaceInit(keys, ext[i]);
        if j < |prev| {
          FirstPlaceInit(keys, ext[j]);
        }
      }
    }
  }

  /** Counters that started at zero hold exactly the totals filed under
      their keys. */
  lemma CountsFromZero(d0: Results, d: Results, stream: seq<(string, Outcome)>)
    requires Keys(d) == Keys(d0)
    requires forall i :: 0 <= i < |d0| ==> d0[i].1 == Zero
    requires forall i :: 0 <= i < |d0| ==> d[i].1 == Plus(d0[i].1, Total(OutcomesFor(stream, d0[i].0)))
    ensures forall i :: 0 <= i < |d| ==> d[i].1 == Total(OutcomesFor(stream, d[i].0))
  {
    forall i | 0 <= i < |d| ensures d[i].1 == Total(OutcomesFor(stream, d[i].0)) {
      assert d[i].0 == Keys(d)[i] == Keys(d0)[i] == d0[i].0;
      PlusZero(Total(OutcomesFor(stream, d0[i].0)));
    }
  }

  lemma PlusZero(c: Counters)
    ensures Plus(Zero, c) == c
  {
  }


  /** A key receives one outcome per arrival under that key. */
  lemma {:induction false} OutcomesForCount(stream: seq<(string, Outcome)>, k: string)
    ensures |OutcomesFor(stream, k)| == multiset(Keys(stream))[k]
    decreases |stream|
  {
    if |stream| > 0 {
      OutcomesForCount(stream[1..], k);
      assert Keys(stream) == [stream[0].0] + Keys(stream[1..]);
    }
  }

  /** The outcomes filed under a key are among those that arrived. */
  lemma {:induction false} OutcomesForValid(stream: seq<(string, Outcome)>, k: string)
    requires forall m :: 0 <= m < |stream| ==> ValidOutcome(stream[m].1)
    ensures forall m :: 0 <= m < |OutcomesFor(stream, k)| ==> ValidOutcome(OutcomesFor(stream, k)[m])
    decreases |stream|
  {
    if |stream| > 0 {
      OutcomesForValid(stream[1..], k);
      var head: seq<Outcome> := if stream[0].0 == k then [stream[0].1] else [];
      var os := OutcomesFor(stream, k);
      assert os == head + OutcomesFor(stream[1..], k);
      forall m | 0 <= m < |os| ensures ValidOutcome(os[m]) {
        if m >= |head| {
          assert os[m] == OutcomesFor(stream[1..], k)[m - |head|];
        }
      }
    }
  }
}

=== FILE: arith.dfy ===
/** Small facts of integer and real arithmetic the counting and averaging
    proofs lean on. */
module Arith {
  /** One more row of `b`. */
  lemma MulSucc(a: int, b: int)
    ensures b + a * b == (a + 1) * b
  {
  }

  /** The position the loops `for e`, `for t in range(p)`, `for s in
      range(4)`, `for r in range(c)` reach, written block by block. */
  lemma LoopIndex(e: int, p: int, t: int, s: int, c: int, r: int)
    ensures ((e * p + t) * 4 + s) * c + r == e * (p * (4 * c)) + (t * (4 * c) + (s * c + r))
  {
  }

  lemma MulAssoc(a: int, b: int, c: int)
    ensures a * b * c == a * (b * c)
  {
  }

  /** Dividing by a positive count keeps order. */
  lemma DivMono(x: real, y: real, m: real)
    requires m > 0.0 && x <= y
    ensures x / m <= y / m
  {
    var a, b := x / m, y / m;
    assert a * m == x;
    assert b * m == y;
    assert (b - a) * m == y - x;
  }

  /** An average over `m` matches of a part between zero and a whole lies
      between zero and the whole's average. */
  lemma ShareBounds(part: int, whole: int, m: nat)
    requires m > 0 && 0 <= part <= whole
    ensures 0.0 <= part as real / m as real <= whole as real / m as real
  {
    DivMono(0.0, part as real, m as real);
    DivMono(part as real, whole as real, m as real);
  }

  /** `k * m` spread over `m` matches is `k` each. */
  lemma Scaled(k: nat, m: nat)
    requires m > 0
    ensures (k * m) as real / m as real == k as real
  {
    var x := (k * m) as real;
    assert x == k as real * m as real;
  }
}

=== FILE: dicts.dfy ===
/** Python dictionaries as sequences of key/value pairs.  Keeping the pairs in
    a sequence makes insertion order explicit, which the scripts rely on for
    tie-breaking (`max` and the stable `sorted` both respect it). */
module Dicts {
  import opened Wrappers

  /** No key occurs twice: the defining property of a dictionary. */
  predicate DistinctKeys<K(==), V>(s: seq<(K, V)>) {
    forall i, j :: 0 <= i < j < |s| ==> s[i].0 != s[j].0
  }

  /** A dictionary in iteration (insertion) order. */
  type Dict<K(==), V> = s: seq<(K, V)> | DistinctKeys(s) witness []

  /** The keys, in iteration order. */
  function Keys<K, V>(s: seq<(K, V)>): (ks: seq<K>)
    ensures |ks| == |s|
    ensures forall i :: 0 <= i < |s| ==> ks[i] == s[i].0
  {
    seq(|s|, i requires 0 <= i < |s| => s[i].0)
  }

  /** The values, in iteration order. */
  function Values<K, V>(s: seq<(K, V)>): (vs: seq<V>)
    ensures |vs| == |s|
    ensures forall i :: 0 <= i < |s| ==> vs[i] == s[i].1
  {
    seq(|s|, i requires 0 <= i < |s| => s[i].1)
  }

  /** Index of the first pair whose key is `k`, or `|s|` when there is none. */
  function IndexOf<K(==), V>(s: seq<(K, V)>, k: K): (i: nat)
    ensures i <= |s|
    ensures i < |s| ==> s[i].0 == k
    ensures forall j :: 0 <= j < i ==> s[j].0 != k
  {
    if |s| == 0 then 0
    else if s[0].0 == k then 0
    else 1 + IndexOf(s[1..], k)
  }

  /** `d[k]`: None stands for the KeyError Python raises on a missing key. */
  function Get<K(==), V>(d: Dict<K, V>, k: K): (r: Option<V>)
    ensures r.None? <==> k !in Keys(d)
    ensures forall i :: 0 <= i < |d| && d[i].0 == k ==> r == Some(d[i].1)
  {
    var i := IndexOf(d, k);
    if i < |d| then Some(d[i].1) else None
  }

  /** In a dictionary, a key sits at exactly one index. */
  lemma IndexOfUnique<K, V>(d: Dict<K, V>, p: nat)
    requires p < |d|
    ensures IndexOf(d, d[p].0) == p
  {
  }

  /** IndexOf over a concatenation looks in the second part only when the first lacks the key. */
  lemma {:induction false} IndexOfConcat<K, V>(a: seq<(K, V)>, b: seq<(K, V)>, k: K)
    ensures IndexOf(a + b, k) == if IndexOf(a, k) < |a| then IndexOf(a, k) else |a| + IndexOf(b, k)
  {
    if |a| == 0 {
      assert a + b == b;
    } else if a[0].0 == k {
    } else {
      assert (a + b)[1..] == a[1..] + b;
      IndexOfConcat(a[1..], b, k);
    }
  }
}

=== FILE: estandar.dfy ===
/** The driver of `benchmark_vs_agentes_estandar.py`: the batch-and-drain
    loop that folds completed matches into the results, the progress
    lines it reports, and the summary table sorted by win ratio. */
module Estandar {
  import opened Wrappers
  import opened Dicts
  import opened Standings
  import opened MatchRunner
  import opened Schedule
  import opened Aggregate
  import opened StableSort
  import opened Arith

  /** `n_matches_per_permutation`. */
  const MatchesPerPermutation := 10

  /** `batch_size`: pending matches are drained once this many are queued. */
  const BatchSize := 10000

  /** A progress line is printed after every this many completed matches. */
  const ProgressEvery := 10000

  /** A completed match: its result key and its outcome. */
  type Done = (string, Outcome)

  /** Whether a progress line is printed once `done` matches have completed. */
  predicate Reports(done: nat, total: nat) {
    done % ProgressEvery == 0 || done == total
  }

  /** The counts at which progress lines have been printed once `done`
      matches have completed, in printing order. */
  function Milestones(done: nat, total: nat): (ms: seq<nat>)
    ensures forall m :: m in ms <==> 1 <= m <= done && Reports(m, total)
    ensures forall a, b :: 0 <= a < b < |ms| ==> ms[a] < ms[b]
    decreases done
  {
    if done == 0 then []
    else
      var prev := Milestones(done - 1, total);
      assert forall a :: 0 <= a < |prev| ==> prev[a] in prev;
      if Reports(done, total) then prev + [done] else prev
  }

  /** One drain: fold the batch in completion order, counting each match
      and printing progress where due. */
  method Drain(results: Results, batch: seq<Done>, done: nat, total: nat, progress: seq<nat>)
    returns (r: Results, d: nat, p: seq<nat>)
    requires KeysKnown(results, batch)
    requires progress == Milestones(done, total)
    ensures r == FoldAll(results, batch)
    ensures d == done + |batch|
    ensures p == Milestones(d, total)
  {
    r, d, p := results, done, progress;
    var j := 0;
    while j < |batch|
      invariant 0 <= j <= |batch|
      invariant d == done + j
      invariant KeysKnown(r, batch[j..])
      invariant FoldAll(r, batch[j..]) == FoldAll(results, batch)
      invariant p == Milestones(d, total)
    {
      FoldStep(r, batch, j);
      MilestonesNext(d, total);
      r := Record(r, batch[j].0, batch[j].1);
      d := d + 1;
      if d % ProgressEvery == 0 || d == total {
        p := p + [d];
      }
      j := j + 1;
    }
  }

  /** Folding `batch[j..]` is recording `batch[j]` and folding the rest. */
  lemma FoldStep(r: Results, batch: seq<Done>, j: nat)
    requires j < |batch| && KeysKnown(r, batch[j..])
    ensures KeysKnown(Record(r, batch[j].0, batch[j].1), batch[j + 1..])
    ensures FoldAll(Record(r, batch[j].0, batch[j].1), batch[j + 1..]) == FoldAll(r, batch[j..])
  {
    assert batch[j..][1..] == batch[j + 1..];
    assert batch[j..][0] == batch[j];
  }

  /** One more completed match adds a progress line exactly when one is due. */
  lemma MilestonesNext(done: nat, total: nat)
    ensures Milestones(done + 1, total)
         == if Reports(done + 1, total) then Milestones(done, total) + [done + 1] else Milestones(done, total)
  {
  }

  /** The submission loop and final flush.  `completion` is the order in
      which `as_completed` hands back a batch; the caller promises only
      that it returns the batch's matches, each once.  The first argument
      is the number of matches folded before the batch. */
  method RunBatches(stream: seq<Done>, results0: Results, batchSize: nat, total: nat,
                    completion: (nat, seq<Done>) -> seq<Done>)
    returns (results: Results, matchesDone: nat, progress: seq<nat>)
    requires KeysKnown(results0, stream)
    requires forall k: nat, b :: multiset(completion(k, b)) == multiset(b)
    ensures matchesDone == |stream|
    ensures Keys(results) == Keys(results0)
    ensures forall i :: 0 <= i < |results0| ==>
      results[i].1 == Plus(results0[i].1, Total(OutcomesFor(stream, results0[i].0)))
    ensures forall m :: m in progress <==> 1 <= m <= matchesDone && Reports(m, total)
  {
    results, matchesDone, progress := results0, 0, [];
    var pending: seq<Done> := [];
    var i := 0;
    while i < |stream|
      invariant 0 <= matchesDone <= i <= |stream|
      invariant matchesDone + |pending| == i
      invariant pending == stream[matchesDone..i]
      invariant batchSize > 0 ==> |pending| < batchSize
      invariant KeysKnown(results0, stream[..matchesDone]) && results == FoldAll(results0, stream[..matchesDone])
      invariant progress == Milestones(matchesDone, total)
    {
      SliceExtend(stream, matchesDone, i);
      pending := pending + [stream[i]];
      i := i + 1;
      if |pending| >= batchSize {
        results, matchesDone, progress := DrainPending(stream, results0, results, matchesDone, i, total, progress, completion);
        pending := [];
      }
    }
    if |pending| > 0 {
      results, matchesDone, progress := DrainPending(stream, results0, results, matchesDone, i, total, progress, completion);
    }
    assert stream[..matchesDone] == stream;
    FoldAllCounts(results0, stream);
  }

  /** Drains `stream[done..upTo]` in completion order; the results end as if
      every match up to `upTo` had been folded in arrival order. */
  method DrainPending(stream: seq<Done>, results0: Results, results: Results, done: nat, upTo: nat, total: nat,
                      progress: seq<nat>, completion: (nat, seq<Done>) -> seq<Done>)
    returns (r: Results, d: nat, p: seq<nat>)
    requires done <= upTo <= |stream|
    requires KeysKnown(results0, stream)
    requires forall k: nat, b :: multiset(completion(k, b)) == multiset(b)
    requires KeysKnown(results0, stream[..done]) && results == FoldAll(results0, stream[..done])
    requires progress == Milestones(done, total)
    ensures d == upTo
    ensures KeysKnown(results0, stream[..upTo]) && r == FoldAll(results0, stream[..upTo])
    ensures p == Milestones(d, total)
  {
    var batch := stream[done..upTo];
    PrefixSplit(stream, done, upTo);
    KnownPrefix(results0, stream, upTo);
    FoldConcat(results0, stream[..done], batch);
    var arrived := completion(done, batch);
    FoldOrderIndependent(results, batch, arrived);
    r, d, p := Drain(results, arrived, done, total, progress);
  }

  /** Widening a stretch by one element appends that element. */
  lemma SliceExtend<T>(s: seq<T>, a: nat, b: nat)
    requires a <= b < |s|
    ensures s[a..b + 1] == s[a..b] + [s[b]]
  {
  }

  /** A prefix is a shorter prefix followed by the stretch between them. */
  lemma PrefixSplit<T>(s: seq<T>, i: nat, j: nat)
    requires i <= j <= |s|
    ensures s[..j] == s[..i] + s[i..j]
  {
  }

  /** The keys of a prefix of the stream are known when the stream's are. */
  lemma KnownPrefix(d: Results, stream: seq<Done>, j: nat)
    requires j <= |stream| && KeysKnown(d, stream)
    ensures KeysKnown(d, stream[..j])
  {
    forall m | 0 <= m < j ensures stream[..j][m].0 in Keys(d) {
      assert stream[..j][m] == stream[m];
    }
  }

  /** The match stream: each task's key, with the outcome of playing it.
      Each match gets its own draw of the engine's randomness. */
  function Play<A, V>(tasks: seq<Task<A, V>>, show: Params<V> -> string, engine: Engine<A, V>): (stream: seq<Done>)
    ensures |stream| == |tasks|
    ensures forall m :: 0 <= m < |tasks| ==>
      stream[m].0 == TaskKey(tasks[m], show) && ValidOutcome(stream[m].1)
  {
    seq(|tasks|, m requires 0 <= m < |tasks| =>
      (TaskKey(tasks[m], show),
       SimulateMatch(tasks[m].opponents, tasks[m].position, tasks[m].cls, tasks[m].params, engine, m)))
  }

  /** A line of the summary: name, wins, points, matches, and the three
      averages over `partidas_por_agente`. */
  datatype Row = Row(name: string, wins: int, points: int, matches: nat, ratio: real, avgPoints: real, meanRank: real)

  function RatioOf(row: Row): real {
    row.ratio
  }

  function MakeRow(name: string, c: Counters, perAgent: nat): (row: Row)
    requires perAgent > 0
    ensures row.name == name && row.wins == c.wins && row.points == c.points && row.matches == perAgent
    ensures row.ratio * perAgent as real == c.wins as real
    ensures row.avgPoints * perAgent as real == c.points as real
    ensures row.meanRank * perAgent as real == c.rankSum as real
  {
    Row(name, c.wins, c.points, perAgent,
        c.wins as real / perAgent as real,
        c.points as real / perAgent as real,
        c.rankSum as real / perAgent as real)
  }

  /** The rows in results order, before sorting. */
  function Rows(results: Results, perAgent: nat): (rows: seq<Row>)
    requires perAgent > 0
    ensures |rows| == |results|
    ensures forall i :: 0 <= i < |results| ==> rows[i] == MakeRow(results[i].0, results[i].1, perAgent)
  {
    seq(|results|, i requires 0 <= i < |results| => MakeRow(results[i].0, results[i].1, perAgent))
  }

  /** `resumen`, sorted by win ratio, best first.  None is the
      ZeroDivisionError raised when there are results to divide but no
      matches per agent. */
  function Summary(results: Results, perAgent: nat): (rows: Option<seq<Row>>)
    ensures rows.None? <==> perAgent == 0 && |results| > 0
    ensures rows.Some? && perAgent > 0 ==>
      && multiset(rows.value) == multiset(Rows(results, perAgent))
      && Descending(rows.value, RatioOf)
    ensures rows.Some? && perAgent == 0 ==> rows.value == []
  {
    if |results| == 0 then Some([])
    else if perAgent == 0 then None
    else Some(SortDesc(Rows(results, perAgent), RatioOf))
  }

  /** A win ratio lies in [0, 1] once the wins are between zero and the
      number of matches. */
  lemma RatioBounds(name: string, c: Counters, perAgent: nat)
    requires perAgent > 0
    requires 0 <= c.wins <= perAgent
    ensures 0.0 <= MakeRow(name, c, perAgent).ratio <= 1.0
  {
    ShareBounds(c.wins, perAgent, perAgent);
    Scaled(1, perAgent);
  }

  /** The result keys of the entries, in list order. */
  function EntryKeys<V>(entries: seq<Entry<V>>, show: Params<V> -> string): (ks: seq<string>)
    ensures |ks| == |entries|
    ensures forall i :: 0 <= i < |entries| ==> ks[i] == EntryKey(entries[i], show)
  {
    seq(|entries|, i requires 0 <= i < |entries| => EntryKey(entries[i], show))
  }

  lemma PlayKeys<A, V>(tasks: seq<Task<A, V>>, show: Params<V> -> string, engine: Engine<A, V>)
    ensures Keys(Play(tasks, show, engine)) == TaskKeys(tasks, show)
  {
  }

  /** Every match is filed under a key the results dictionary was created
      with. */
  lemma StreamKeysKnown<A, V>(entries: seq<Entry<V>>, perms: seq<seq<A>>, reps: nat, load: string -> A,
                              show: Params<V> -> string, engine: Engine<A, V>)
    ensures KeysKnown(Fresh(EntryKeys(entries, show)), Play(GenerateTasks(entries, perms, reps, load), show, engine))
  {
    var tasks := GenerateTasks(entries, perms, reps, load);
    var stream := Play(tasks, show, engine);
    var d := Fresh(EntryKeys(entries, show));
    GeneratedShape(entries, perms, reps, load);
    forall m | 0 <= m < |stream| ensures stream[m].0 in Keys(d) {
      assert tasks[m] in tasks;
      var e :| 0 <= e < |entries| && entries[e] == Entry(tasks[m].path, tasks[m].params);
      assert EntryKeys(entries, show)[e] == stream[m].0;
    }
  }

  /** With distinct result keys, each key's wins lie between zero and
      `partidas_por_agente`. */
  lemma WinsWithinMatches<A, V>(entries: seq<Entry<V>>, perms: seq<seq<A>>, reps: nat, load: string -> A,
                                show: Params<V> -> string, engine: Engine<A, V>, k: string)
    requires DistinctEntryKeys(entries, show)
    requires k in EntryKeys(entries, show)
    ensures var stream := Play(GenerateTasks(entries, perms, reps, load), show, engine);
      0 <= Total(OutcomesFor(stream, k)).wins <= PerAgent(|perms|, reps)
  {
    var tasks := GenerateTasks(entries, perms, reps, load);
    var stream := Play(tasks, show, engine);
    var m :| 0 <= m < |entries| && EntryKeys(entries, show)[m] == k;
    TasksPerKey(entries, perms, reps, load, show, m);
    PlayKeys(tasks, show, engine);
    OutcomesForCount(stream, k);
    OutcomesForValid(stream, k);
    TotalBounds(OutcomesFor(stream, k));
  }

  /** Every win ratio of the summary lies in [0, 1] once every key's wins
      lie between zero and `partidas_por_agente`. */
  lemma RatiosWithinOne(results: Results, perAgent: nat)
    requires forall i :: 0 <= i < |results| ==> 0 <= results[i].1.wins <= perAgent
    ensures Summary(results, perAgent).Some? ==>
      forall row :: row in Summary(results, perAgent).value ==> 0.0 <= row.ratio <= 1.0
  {
    if Summary(results, perAgent).Some? && perAgent > 0 {
      var rows := Summary(results, perAgent).value;
      forall row | row in rows ensures 0.0 <= row.ratio <= 1.0 {
        assert row in multiset(Rows(results, perAgent));
        var i :| 0 <= i < |results| && Rows(results, perAgent)[i] == row;
        RatioBounds(results[i].0, results[i].1, perAgent);
      }
    }
  }

  /** The whole estandar benchmark: build the schedule, play every match,
      fold the outcomes in batches in completion order, and summarise.  The
      number of matches folded is `total_matches`, the last progress line
      is the one for the final match, and with distinct result keys every
      win ratio in the summary lies in [0, 1]. */
  method Benchmark<A, V>(entries: seq<Entry<V>>, roster: seq<A>, reps: nat, load: string -> A,
                         show: Params<V> -> string, engine: Engine<A, V>,
                         completion: (nat, seq<Done>) -> seq<Done>)
    returns (results: Results, matchesDone: nat, progress: seq<nat>, summary: Option<seq<Row>>)
    requires forall k: nat, b :: multiset(completion(k, b)) == multiset(b)
    ensures matchesDone == TotalMatches(|entries|, PermCount(|roster|), reps)
    ensures forall k :: k in Keys(results) <==> k in EntryKeys(entries, show)
    ensures forall m :: m in progress <==> 1 <= m <= matchesDone && Reports(m, matchesDone)
    ensures matchesDone > 0 ==> matchesDone in progress
    ensures summary.None? <==> PerAgent(PermCount(|roster|), reps) == 0 && |entries| > 0
    ensures DistinctEntryKeys(entries, show) ==>
      forall i :: 0 <= i < |results| ==> 0 <= results[i].1.wins <= PerAgent(PermCount(|roster|), reps)
    ensures DistinctEntryKeys(entries, show) && summary.Some? ==>
      forall row :: row in summary.value ==> 0.0 <= row.ratio <= 1.0
    ensures var stream := Play(GenerateTasks(entries, Perms(roster), reps, load), show, engine);
      forall i :: 0 <= i < |results| ==> results[i].1 == Total(OutcomesFor(stream, results[i].0))
    ensures summary == Summary(results, PerAgent(PermCount(|roster|), reps))
  {
    var perms := Perms(roster);
    TriplesCount(|roster|);
    results, matchesDone, progress, summary := RunMatches(entries, perms, reps, load, show, engine, completion);
  }

  /** Everything after the list of permutations is built: generate the
      tasks, play and fold them, and summarise. */
  method RunMatches<A, V>(entries: seq<Entry<V>>, perms: seq<seq<A>>, reps: nat, load: string -> A,
                          show: Params<V> -> string, engine: Engine<A, V>,
                          completion: (nat, seq<Done>) -> seq<Done>)
    returns (results: Results, matchesDone: nat, progress: seq<nat>, summary: Option<seq<Row>>)
    requires forall k: nat, b :: multiset(completion(k, b)) == multiset(b)
    ensures matchesDone == TotalMatches(|entries|, |perms|, reps)
    ensures forall k :: k in Keys(results) <==> k in EntryKeys(entries, show)
    ensures forall m :: m in progress <==> 1 <= m <= matchesDone && Reports(m, matchesDone)
    ensures matchesDone > 0 ==> matchesDone in progress
    ensures summary.None? <==> PerAgent(|perms|, reps) == 0 && |entries| > 0
    ensures DistinctEntryKeys(entries, show) ==>
      forall i :: 0 <= i < |results| ==> 0 <= results[i].1.wins <= PerAgent(|perms|, reps)
    ensures DistinctEntryKeys(entries, show) && summary.Some? ==>
      forall row :: row in summary.value ==> 0.0 <= row.ratio <= 1.0
    ensures var stream := Play(GenerateTasks(entries, perms, reps, load), show, engine);
      forall i :: 0 <= i < |results| ==> results[i].1 == Total(OutcomesFor(stream, results[i].0))
    ensures summary == Summary(results, PerAgent(|perms|, reps))
  {
    var tasks := GenerateTasks(entries, perms, reps, load);
    var total := TotalMatches(|entries|, |perms|, reps);
    var perAgent := PerAgent(|perms|, reps);
    var stream := Play(tasks, show, engine);
    var results0 := Fresh(EntryKeys(entries, show));
    StreamKeysKnown(entries, perms, reps, load, show, engine);
    results, matchesDone, progress := RunBatches(stream, results0, BatchSize, total, completion);
    CountsFromZero(results0, results, stream);
    assert |results0| == |results| by {
      assert |Keys(results0)| == |Keys(results)|;
    }
    assert |entries| > 0 ==> |results| > 0 by {
      if |entries| > 0 {
        assert EntryKeys(entries, show)[0] in Keys(results0);
      }
    }
    assert |results| > 0 ==> |entries| > 0 by {
      if |results| > 0 {
        assert results[0].0 in Keys(results);
      }
    }
    summary := Summary(results, perAgent);
    if DistinctEntryKeys(entries, show) {
      forall i | 0 <= i < |results| ensures 0 <= results[i].1.wins <= perAgent {
        var k := results0[i].0;
        assert k in Keys(results0);
        WinsWithinMatches(entries, perms, reps, load, show, engine, k);
      }
      RatiosWithinOne(results, perAgent);
    }
  }
}

=== FILE: int_text.dfy ===
/** The two conversions between integers and text that the scripts use:
    Python's `int(text)` (to read the numeric suffix of a trace key) and
    `str(n)` (to build the seat identifier `J{position}`). */
module IntText {
  import opened Wrappers

  predicate IsDigit(c: char) {
    '0' <= c <= '9'
  }

  predicate AllDigits(s: string) {
    forall i :: 0 <= i < |s| ==> IsDigit(s[i])
  }

  function DigitValue(c: char): (d: nat)
    requires IsDigit(c)
    ensures d < 10
  {
    (c as int) - ('0' as int)
  }

  function DigitChar(d: nat): (c: char)
    requires d < 10
    ensures IsDigit(c) && DigitValue(c) == d
  {
    (('0' as int) + d) as char
  }

  /** Whitespace as `int()` strips it.  CPython first maps every non-ASCII
      character that `Py_UNICODE_ISSPACE` accepts to a space and leaves
      ASCII characters as they are; the parser then skips only the ASCII
      whitespace `\t \n \v \f \r` and space.  So the separators U+001C to
      U+001F, which `str.isspace` accepts, are not stripped. */
  predicate IsSpace(c: char) {
    var k := c as int;
    || (0x09 <= k <= 0x0D) || k == 0x20
    || k == 0x85 || k == 0xA0 || k == 0x1680
    || (0x2000 <= k <= 0x200A)
    || k == 0x2028 || k == 0x2029 || k == 0x202F || k == 0x205F || k == 0x3000
  }

  /** Value of a run of decimal digits, most significant digit first. */
  function DigitsValue(ds: string): nat
    requires AllDigits(ds)
  {
    if |ds| == 0 then 0
    else DigitsValue(ds[..|ds| - 1]) * 10 + DigitValue(ds[|ds| - 1])
  }

  /** The shortest decimal spelling of a natural number. */
  function NatToDigits(n: nat): (ds: string)
    ensures |ds| > 0 && AllDigits(ds)
    ensures |ds| > 1 ==> ds[0] != '0'
  {
    if n < 10 then [DigitChar(n)]
    else NatToDigits(n / 10) + [DigitChar(n % 10)]
  }

  /** Python's `str(n)` on an int. */
  function IntToString(n: int): (s: string)
    ensures |s| > 0
    ensures n < 0 <==> s[0] == '-'
    ensures forall i :: 0 < i < |s| ==> IsDigit(s[i])
    ensures '_' !in s
  {
    if n < 0 then "-" + NatToDigits(-n) else NatToDigits(n)
  }

  /** Drops leading whitespace. */
  function StripLeading(s: string): (r: string)
    ensures |r| <= |s| && r == s[|s| - |r|..]
    ensures forall i :: 0 <= i < |s| - |r| ==> IsSpace(s[i])
    ensures |r| > 0 ==> !IsSpace(r[0])
  {
    if |s| > 0 && IsSpace(s[0]) then StripLeading(s[1..]) else s
  }

  /** Drops trailing whitespace. */
  function StripTrailing(s: string): (r: string)
    ensures |r| <= |s| && r == s[..|r|]
    ensures forall i :: |r| <= i < |s| ==> IsSpace(s[i])
    ensures |r| > 0 ==> !IsSpace(r[|r| - 1])
  {
    if |s| > 0 && IsSpace(s[|s| - 1]) then StripTrailing(s[..|s| - 1]) else s
  }

  /** The text `int()` actually reads: `s` without surrounding whitespace. */
  function Strip(s: string): (r: string)
    ensures |r| <= |s|
    ensures |r| > 0 ==> !IsSpace(r[0]) && !IsSpace(r[|r| - 1])
  {
    StripTrailing(StripLeading(s))
  }

  /** Whether a stripped text is an integer literal: an optional sign and at
      least one decimal digit. */
  predicate IsIntLiteral(t: string) {
    if |t| > 0 && (t[0] == '+' || t[0] == '-') then |t| > 1 && AllDigits(t[1..])
    else |t| > 0 && AllDigits(t)
  }

  /** Python's `int(s)` on a text without underscores (the only texts the
      scripts hand it).  None stands for the ValueError it raises. */
  function ParseInt(s: string): (r: Option<int>)
    requires '_' !in s
    ensures r.Some? <==> IsIntLiteral(Strip(s))
  {
    var t := Strip(s);
    if |t| > 0 && (t[0] == '+' || t[0] == '-') then
      if |t| > 1 && AllDigits(t[1..]) then
        var m: int := DigitsValue(t[1..]);
        Some(if t[0] == '-' then -m else m)
      else None
    else if |t| > 0 && AllDigits(t) then Some(DigitsValue(t))
    else None
  }

  lemma {:induction false} DigitsRoundTrip(n: nat)
    ensures DigitsValue(NatToDigits(n)) == n
  {
    if n >= 10 {
      var ds := NatToDigits(n);
      assert ds[..|ds| - 1] == NatToDigits(n / 10);
      DigitsRoundTrip(n / 10);
    }
  }

  lemma StripUnpadded(s: string)
    requires |s| > 0 && !IsSpace(s[0]) && !IsSpace(s[|s| - 1])
    ensures Strip(s) == s
  {
  }

  /** `int(str(n)) == n`: the parser reads back what `str` writes. */
  lemma ParseIntRoundTrip(n: int)
    ensures ParseInt(IntToString(n)) == Some(n)
  {
    var s := IntToString(n);
    StripUnpadded(s);
    if n < 0 {
      assert s[1..] == NatToDigits(-n);
      DigitsRoundTrip(-n);
    } else {
      DigitsRoundTrip(n);
    }
  }

  /** `str` is injective, so distinct seats get distinct identifiers. */
  lemma IntToStringInjective(m: int, n: int)
    requires IntToString(m) == IntToString(n)
    ensures m == n
  {
    ParseIntRoundTrip(m);
    ParseIntRoundTrip(n);
  }
}

=== FILE: match_runner.dfy ===
/** One benchmark match, as both scripts' `simulate_match` runs it: build
    the evaluated agent from its parameters, seat it among the opponents, run
    the engine, and read the evaluated seat's outcome from the final
    victory points.  Every failure along the way collapses to Fallback. */
module MatchRunner {
  import opened Wrappers
  import opened Dicts
  import opened TraceKeys
  import opened Standings

  /** Round cap handed to the engine. */
  const MaxRounds := 200

  /** Number of seats at the table. */
  const SeatCount := 4

  /** Constructor parameters of an evaluated agent as the scripts accept
      them: a list or tuple (positional), a dict (keyword), or any other
      value, which the scripts reject with a TypeError. */
  datatype Params<V> =
    | Positional(args: seq<V>)
    | Keyword(options: seq<(string, V)>)
    | Unsupported(value: V)

  /** What the engine is given for a seat: an agent class, possibly with
      constructor arguments bound ahead of the seat identifier. */
  datatype Factory<A, V> =
    | Plain(cls: A)
    | WithArgs(cls: A, args: seq<V>)
    | WithOptions(cls: A, options: seq<(string, V)>)

  /** The constructor call a factory makes once the engine supplies the
      agent identifier: `cls(agentId, *args, **options)`. */
  datatype AgentCall<A, I, V> = AgentCall(cls: A, agentId: I, args: seq<V>, options: seq<(string, V)>)

  /** The final victory points of a turn, if the turn logged them. */
  datatype EndTurn = EndTurn(victoryPoints: Option<Dict<string, int>>)

  /** One turn of the trace; `endTurn` is None when the turn has no
      "end_turn" entry. */
  datatype TurnLog = TurnLog(endTurn: Option<EndTurn>)

  type RoundLog = Dict<string, TurnLog>

  /** `trace["game"]`: rounds by key, each holding its turns by key. */
  type GameLog = Dict<string, RoundLog>

  /** The game engine, which this model does not contain: given a draw
      (which of its random games this call plays), the seats, the round cap
      and the trace-retention flag, it returns the game log, or None when it
      raises. */
  type Engine<!A, !V> = (nat, seq<Factory<A, V>>, nat, bool) -> Option<GameLog>

  /** The parameter-shape dispatch; None is the TypeError for a shape that
      is neither a list/tuple nor a dict. */
  function Configure<A, V>(cls: A, params: Option<Params<V>>): (f: Option<Factory<A, V>>)
    ensures f.None? <==> params.Some? && params.value.Unsupported?
    ensures f.Some? ==> f.value.cls == cls
  {
    match params
    case None => Some(Plain(cls))
    case Some(Positional(args)) => Some(WithArgs(cls, args))
    case Some(Keyword(options)) => Some(WithOptions(cls, options))
    case Some(Unsupported(_)) => None
  }

  /** The call a factory makes for the identifier the engine hands it. */
  function Construct<A, I, V>(f: Factory<A, V>, agentId: I): (c: AgentCall<A, I, V>)
    ensures c.cls == f.cls && c.agentId == agentId
  {
    match f
    case Plain(cls) => AgentCall(cls, agentId, [], [])
    case WithArgs(cls, args) => AgentCall(cls, agentId, args, [])
    case WithOptions(cls, options) => AgentCall(cls, agentId, [], options)
  }

  /** Positional arguments a parameter shape carries. */
  function ArgsOf<V>(params: Option<Params<V>>): seq<V> {
    if params.Some? && params.value.Positional? then params.value.args else []
  }

  /** Keyword arguments a parameter shape carries. */
  function OptionsOf<V>(params: Option<Params<V>>): seq<(string, V)> {
    if params.Some? && params.value.Keyword? then params.value.options else []
  }

  /** A configured agent is built with the engine's identifier first and the
      stored parameters after it, positional or keyword, unchanged. */
  lemma ConfiguredAgentCall<A, I, V>(cls: A, params: Option<Params<V>>, agentId: I)
    requires !(params.Some? && params.value.Unsupported?)
    ensures Configure(cls, params).Some?
    ensures Construct(Configure(cls, params).value, agentId)
         == AgentCall(cls, agentId, ArgsOf(params), OptionsOf(params))
  {
  }

  /** Python's `list.insert(i, x)`: a negative index counts from the end, and
      the index is clamped to the list. */
  function InsertIndexOf(n: nat, i: int): (k: nat)
    ensures k <= n
    ensures 0 <= i <= n ==> k == i
  {
    if i < 0 then (if i + n < 0 then 0 else i + n)
    else if i > n then n
    else i
  }

  function ListInsert<T>(s: seq<T>, i: int, x: T): (r: seq<T>)
    ensures var k := InsertIndexOf(|s|, i);
      && |r| == |s| + 1 && r[k] == x
      && r[..k] == s[..k] && r[k + 1..] == s[k..]
  {
    var k := InsertIndexOf(|s|, i);
    s[..k] + [x] + s[k..]
  }

  /** `match_agents = list(opponents); match_agents.insert(position, agent)`. */
  function Seats<A, V>(opponents: seq<A>, position: int, evaluated: Factory<A, V>): (seats: seq<Factory<A, V>>)
    ensures |seats| == |opponents| + 1
    ensures 0 <= position <= |opponents| ==>
      && seats[position] == evaluated
      && (forall j :: 0 <= j < |opponents| ==>
            seats[if j < position then j else j + 1] == Plain(opponents[j]))
  {
    var plain := seq(|opponents|, j requires 0 <= j < |opponents| => Plain(opponents[j]));
    var seats := ListInsert(plain, position, evaluated);
    seats
  }

  /** The turn log at the last turn of the last round, located by index:
      the round SelectLast picks among the rounds, then the turn it picks
      among that round's turns.  None when either selection fails. */
  function LastTurnAt(game: GameLog): Option<TurnLog> {
    match SelectLast(RoundKey, Keys(game))
    case None => None
    case Some(i) =>
      match SelectLast(TurnKey, Keys(game[i].1))
      case None => None
      case Some(j) => Some(game[i].1[j].1)
  }

  /** `trace["game"][last_round][last_turn]["end_turn"]["victory_points"]`,
      with the last round and turn chosen by number; None wherever Python
      raises (a non-numeric or missing key, an empty mapping). */
  function FinalVictoryPoints(game: GameLog): (r: Option<Dict<string, int>>)
    ensures r.Some? <==>
      && LastTurnAt(game).Some?
      && LastTurnAt(game).value.endTurn.Some?
      && LastTurnAt(game).value.endTurn.value.victoryPoints.Some?
    ensures r.Some? ==> r == LastTurnAt(game).value.endTurn.value.victoryPoints
  {
    match EntryUnder(Order(RoundKey), game)
    case None =>
      assert SelectLast(RoundKey, Keys(game)).None?;
      None
    case Some(round) =>
      var i := SelectLast(RoundKey, Keys(game)).value;
      LastEntryIsSelected(RoundKey, game, i);
      match EntryUnder(Order(TurnKey), round)
      case None =>
        assert SelectLast(TurnKey, Keys(round)).None?;
        None
      case Some(turn) =>
        var j := SelectLast(TurnKey, Keys(round)).value;
        LastEntryIsSelected(TurnKey, round, j);
        match turn.endTurn
        case None => None
        case Some(e) => e.victoryPoints
  }

  /** The victory points read are those of the end of the last turn of
      the last round, both chosen by number. */
  lemma ReadsLastTurn(game: GameLog, i: nat, j: nat, vp: Dict<string, int>)
    requires i < |game| && SelectLast(RoundKey, Keys(game)) == Some(i)
    requires j < |game[i].1| && SelectLast(TurnKey, Keys(game[i].1)) == Some(j)
    requires game[i].1[j].1.endTurn == Some(EndTurn(Some(vp)))
    ensures FinalVictoryPoints(game) == Some(vp)
  {
    LastEntryIsSelected(RoundKey, game, i);
    LastEntryIsSelected(TurnKey, game[i].1, j);
  }

  /** The body of the `try`: None is any exception; otherwise the outcome
      is the seat's Score in some final victory-point mapping. */
  function RunMatch<A, V>(opponents: seq<A>, position: int, cls: A, params: Option<Params<V>>,
                          engine: Engine<A, V>, draw: nat): (r: Option<Outcome>)
    ensures r.Some? ==> exists vp :: Score(vp, position) == r
    ensures params.Some? && params.value.Unsupported? ==> r.None?
  {
    match Configure(cls, params)
    case None => None
    case Some(f) =>
      match engine(draw, Seats(opponents, position, f), MaxRounds, false)
      case None => None
      case Some(game) =>
        match FinalVictoryPoints(game)
        case None => None
        case Some(vp) =>
          var r := Score(vp, position);
          assert r.Some? ==> Score(vp, position) == r;
          r
  }

  /** `simulate_match` of the estandar script: never raises, and what it
      returns is always a consistent outcome. */
  function SimulateMatch<A, V>(opponents: seq<A>, position: int, cls: A, params: Option<Params<V>>,
                               engine: Engine<A, V>, draw: nat): (o: Outcome)
    ensures ValidOutcome(o)
    ensures params.Some? && params.value.Unsupported? ==> o == Fallback
    ensures o != Fallback ==> exists vp :: Score(vp, position) == Some(o)
  {
    match RunMatch(opponents, position, cls, params, engine, draw)
    case Some(o) => o
    case None => Fallback
  }

  /** `simulate_match` of the random script: the same match against three
      copies of the random agent. */
  function SimulateVsRandom<A, V>(position: int, cls: A, params: Option<Params<V>>, random: A,
                                  engine: Engine<A, V>, draw: nat): (o: Outcome)
    ensures ValidOutcome(o)
    ensures params.Some? && params.value.Unsupported? ==> o == Fallback
  {
    SimulateMatch([random, random, random], position, cls, params, engine, draw)
  }

  /** Fallback determinism: when the engine raises, the match yields exactly
      Fallback, never part of an outcome. */
  lemma EngineFailureFallsBack<A, V>(opponents: seq<A>, position: int, cls: A, params: Option<Params<V>>,
                                     engine: Engine<A, V>, draw: nat)
    requires Configure(cls, params).Some?
    requires engine(draw, Seats(opponents, position, Configure(cls, params).value), MaxRounds, false).None?
    ensures SimulateMatch(opponents, position, cls, params, engine, draw) == Fallback
  {
  }

  /** A trace without the evaluated seat's key yields Fallback, not the
      default rank of 4 with partial data. */
  lemma MissingSeatFallsBack<A, V>(opponents: seq<A>, position: int, cls: A, params: Option<Params<V>>,
                                   engine: Engine<A, V>, draw: nat, game: GameLog, vp: Dict<string, int>)
    requires Configure(cls, params).Some?
    requires engine(draw, Seats(opponents, position, Configure(cls, params).value), MaxRounds, false) == Some(game)
    requires FinalVictoryPoints(game) == Some(vp)
    requires SeatId(position) !in Keys(vp)
    ensures SimulateMatch(opponents, position, cls, params, engine, draw) == Fallback
  {
  }

  /** When the trace can be read, the outcome is the seat's Score in the
      final victory points. */
  lemma ReadableTraceScored<A, V>(opponents: seq<A>, position: int, cls: A, params: Option<Params<V>>,
                                  engine: Engine<A, V>, draw: nat, game: GameLog, vp: Dict<string, int>)
    requires Configure(cls, params).Some?
    requires engine(draw, Seats(opponents, position, Configure(cls, params).value), MaxRounds, false) == Some(game)
    requires FinalVictoryPoints(game) == Some(vp)
    requires SeatId(position) in Keys(vp)
    ensures SimulateMatch(opponents, position, cls, params, engine, draw) == Score(vp, position).value
  {
  }

  /** Any trace the match cannot read to the end (an empty level, a round
      or turn key whose suffix is not an integer, a turn without
      "end_turn", an end of turn without "victory_points") yields exactly
      Fallback. */
  lemma UnreadableTraceFallsBack<A, V>(opponents: seq<A>, position: int, cls: A, params: Option<Params<V>>,
                                       engine: Engine<A, V>, draw: nat, game: GameLog)
    requires Configure(cls, params).Some?
    requires engine(draw, Seats(opponents, position, Configure(cls, params).value), MaxRounds, false) == Some(game)
    requires FinalVictoryPoints(game).None?
    ensures SimulateMatch(opponents, position, cls, params, engine, draw) == Fallback
  {
  }

  /** A round key whose suffix is not an integer makes the trace unreadable. */
  lemma NonNumericRoundUnreadable(game: GameLog, i: nat)
    requires i < |game| && KeyNumber(RoundKey, game[i].0).None?
    ensures FinalVictoryPoints(game).None?
  {
    NonNumericSuffixFails(Keys(game), i, RoundKey);
  }

  /** So does a turn key of the last round whose suffix is not an integer. */
  lemma NonNumericTurnUnreadable(game: GameLog, i: nat, j: nat)
    requires i < |game| && SelectLast(RoundKey, Keys(game)) == Some(i)
    requires j < |game[i].1| && KeyNumber(TurnKey, game[i].1[j].0).None?
    ensures FinalVictoryPoints(game).None?
  {
    NonNumericSuffixFails(Keys(game[i].1), j, TurnKey);
  }

  /** And so does a last turn without "end_turn". */
  lemma MissingEndTurnUnreadable(game: GameLog, i: nat, j: nat)
    requires i < |game| && SelectLast(RoundKey, Keys(game)) == Some(i)
    requires j < |game[i].1| && SelectLast(TurnKey, Keys(game[i].1)) == Some(j)
    requires game[i].1[j].1.endTurn.None?
    ensures FinalVictoryPoints(game).None?
  {
  }

  /** A round key whose suffix is not an integer, anywhere in the trace,
      yields exactly Fallback. */
  lemma NonNumericRoundFallsBack<A, V>(opponents: seq<A>, position: int, cls: A, params: Option<Params<V>>,
                                       engine: Engine<A, V>, draw: nat, game: GameLog, i: nat)
    requires Configure(cls, params).Some?
    requires engine(draw, Seats(opponents, position, Configure(cls, params).value), MaxRounds, false) == Some(game)
    requires i < |game| && KeyNumber(RoundKey, game[i].0).None?
    ensures SimulateMatch(opponents, position, cls, params, engine, draw) == Fallback
  {
    NonNumericRoundUnreadable(game, i);
    UnreadableTraceFallsBack(opponents, position, cls, params, engine, draw, game);
  }

  /** A turn key whose suffix is not an integer, anywhere in the last
      round, yields exactly Fallback. */
  lemma NonNumericTurnFallsBack<A, V>(opponents: seq<A>, position: int, cls: A, params: Option<Params<V>>,
                                      engine: Engine<A, V>, draw: nat, game: GameLog, i: nat, j: nat)
    requires Configure(cls, params).Some?
    requires engine(draw, Seats(opponents, position, Configure(cls, params).value), MaxRounds, false) == Some(game)
    requires i < |game| && SelectLast(RoundKey, Keys(game)) == Some(i)
    requires j < |game[i].1| && KeyNumber(TurnKey, game[i].1[j].0).None?
    ensures SimulateMatch(opponents, position, cls, params, engine, draw) == Fallback
  {
    NonNumericTurnUnreadable(game, i, j);
    UnreadableTraceFallsBack(opponents, position, cls, params, engine, draw, game);
  }

  /** A last turn without "end_turn" yields exactly Fallback. */
  lemma MissingEndTurnFallsBack<A, V>(opponents: seq<A>, position: int, cls: A, params: Option<Params<V>>,
                                      engine: Engine<A, V>, draw: nat, game: GameLog, i: nat, j: nat)
    requires Configure(cls, params).Some?
    requires engine(draw, Seats(opponents, position, Configure(cls, params).value), MaxRounds, false) == Some(game)
    requires i < |game| && SelectLast(RoundKey, Keys(game)) == Some(i)
    requires j < |game[i].1| && SelectLast(TurnKey, Keys(game[i].1)) == Some(j)
    requires game[i].1[j].1.endTurn.None?
    ensures SimulateMatch(opponents, position, cls, params, engine, draw) == Fallback
  {
    MissingEndTurnUnreadable(game, i, j);
    UnreadableTraceFallsBack(opponents, position, cls, params, engine, draw, game);
  }

  /** In the random script the evaluated agent sits at `position` and the
      three other seats hold the random agent. */
  lemma RandomTable<A, V>(position: int, random: A, evaluated: Factory<A, V>)
    requires 0 <= position < SeatCount
    ensures var seats := Seats([random, random, random], position, evaluated);
      && |seats| == SeatCount
      && seats[position] == evaluated
      && forall j :: 0 <= j < SeatCount && j != position ==> seats[j] == Plain(random)
  {
    var seats := Seats([random, random, random], position, evaluated);
    forall j | 0 <= j < SeatCount && j != position ensures seats[j] == Plain(random) {
      if j < position {
        assert seats[j] == Plain([random, random, random][j]);
      } else {
        assert seats[j - 1 + 1] == Plain([random, random, random][j - 1]);
      }
    }
  }
}

=== FILE: max_select.dfy ===
/** Python's `max(items, key=f)`: it keeps the first item whose key is
    maximal, because it replaces its running best only on a strictly greater
    key.  Both the last round/turn selection and the winner selection use it. */
module MaxSelect {

  /** `i` is the first index holding the maximum of `xs`. */
  predicate IsFirstMax(xs: seq<int>, i: nat) {
    && i < |xs|
    && (forall j :: 0 <= j < |xs| ==> xs[j] <= xs[i])
    && (forall j :: 0 <= j < i ==> xs[j] < xs[i])
  }

  /** The left-to-right scan `max` performs, over the keys `xs`. */
  function FirstMax(xs: seq<int>): (i: nat)
    requires |xs| > 0
    ensures IsFirstMax(xs, i)
  {
    if |xs| == 1 then 0
    else
      var best := FirstMax(xs[..|xs| - 1]);
      if xs[|xs| - 1] > xs[best] then |xs| - 1 else best
  }

  /** At most one index is the first maximum, so FirstMax is the only answer. */
  lemma FirstMaxUnique(xs: seq<int>, i: nat, j: nat)
    requires IsFirstMax(xs, i) && IsFirstMax(xs, j)
    ensures i == j
  {
    assert xs[i] <= xs[j] && xs[j] <= xs[i];
  }
}

=== FILE: schedule.dfy ===
/** The match schedule of the estandar script: every ordered triple of
    distinct opponents from the roster (`itertools.permutations(roster, 3)`),
    crossed with the four seats and the repetitions, for each evaluated
    entry, and the keys its results are filed under. */
module Schedule {
  import opened Wrappers
  import opened MatchRunner
  import opened Arith

  /** Three roster indices, in seat order. */
  type Triple = (nat, nat, nat)

  /** Three distinct indices into a roster of `n` agents. */
  predicate DistinctBelow(t: Triple, n: nat) {
    t.0 < n && t.1 < n && t.2 < n && t.0 != t.1 && t.0 != t.2 && t.1 != t.2
  }

  /** Lexicographic order on index triples, the order in which
      `itertools.permutations` yields them. */
  predicate LexLess(a: Triple, b: Triple) {
    a.0 < b.0 || (a.0 == b.0 && (a.1 < b.1 || (a.1 == b.1 && a.2 < b.2)))
  }

  predicate Ascending(s: seq<Triple>) {
    forall a, b :: 0 <= a < b < |s| ==> LexLess(s[a], s[b])
  }

  /** The indices below `n` not in `avoid`, in increasing order. */
  function Choices(n: nat, avoid: set<nat>): (r: seq<nat>)
    ensures forall x: nat :: x in r <==> x < n && x !in avoid
    ensures forall a, b :: 0 <= a < b < |r| ==> r[a] < r[b]
  {
    if n == 0 then []
    else
      var rest := Choices(n - 1, avoid);
      if n - 1 in avoid then rest
      else
        assert forall a :: 0 <= a < |rest| ==> rest[a] in rest;
        assert forall x: nat :: x in rest + [n - 1] <==> x in rest || x == n - 1;
        rest + [n - 1]
  }

  /** How many indices below `n` are in `s`. */
  function CountBelow(n: nat, s: set<nat>): nat {
    if n == 0 then 0 else CountBelow(n - 1, s) + (if n - 1 in s then 1 else 0)
  }

  lemma {:induction false} ChoicesCount(n: nat, avoid: set<nat>)
    ensures |Choices(n, avoid)| + CountBelow(n, avoid) == n
  {
    if n > 0 {
      ChoicesCount(n - 1, avoid);
    }
  }

  lemma {:induction false} CountBelowNone(n: nat, s: set<nat>)
    requires forall x :: x in s ==> x >= n
    ensures CountBelow(n, s) == 0
  {
    if n > 0 {
      CountBelowNone(n - 1, s);
    }
  }

  lemma {:induction false} CountBelowOne(n: nat, i: nat)
    requires i < n
    ensures CountBelow(n, {i}) == 1
  {
    if i == n - 1 {
      CountBelowNone(n - 1, {i});
    } else {
      CountBelowOne(n - 1, i);
    }
  }

  lemma {:induction false} CountBelowTwo(n: nat, i: nat, j: nat)
    requires i < n && j < n && i != j
    ensures CountBelow(n, {i, j}) == 2
  {
    if i == n - 1 {
      CountBelowOneOf(n - 1, i, j);
      assert {j, i} == {i, j};
    } else if j == n - 1 {
      CountBelowOneOf(n - 1, j, i);
    } else {
      CountBelowTwo(n - 1, i, j);
      assert n - 1 !in {i, j};
    }
  }

  lemma {:induction false} CountBelowOneOf(n: nat, big: nat, i: nat)
    requires i < n <= big
    ensures CountBelow(n, {i, big}) == 1
  {
    if i == n - 1 {
      CountBelowNone(n - 1, {i, big});
      assert n - 1 in {i, big};
    } else {
      CountBelowOneOf(n - 1, big, i);
      assert n - 1 !in {i, big};
    }
  }

  /** The triples `(i, j, k)` for each `k` in `ks`. */
  function Thirds(i: nat, j: nat, ks: seq<nat>): seq<Triple> {
    seq(|ks|, m requires 0 <= m < |ks| => (i, j, ks[m]))
  }

  /** The triples starting with `i`, second index drawn from `js`. */
  function Seconds(n: nat, i: nat, js: seq<nat>): seq<Triple>
    decreases |js|
  {
    if |js| == 0 then []
    else Thirds(i, js[0], Choices(n, {i, js[0]})) + Seconds(n, i, js[1..])
  }

  /** The triples whose first index is drawn from `firsts`. */
  function Firsts(n: nat, firsts: seq<nat>): seq<Triple>
    decreases |firsts|
  {
    if |firsts| == 0 then []
    else Seconds(n, firsts[0], Choices(n, {firsts[0]})) + Firsts(n, firsts[1..])
  }

  /** `itertools.permutations(range(n), 3)`: exactly the triples of distinct
      indices below `n`, in strictly increasing lexicographic order, so none
      is repeated. */
  function Triples(n: nat): (ts: seq<Triple>)
    ensures forall t :: t in ts <==> DistinctBelow(t, n)
    ensures Ascending(ts)
    ensures forall a, b :: 0 <= a < b < |ts| ==> ts[a] != ts[b]
  {
    var firsts := Choices(n, {});
    FirstsMembers(n, firsts);
    FirstsAscending(n, firsts);
    Firsts(n, firsts)
  }

  lemma {:induction false} SecondsMembers(n: nat, i: nat, js: seq<nat>)
    ensures forall t :: t in Seconds(n, i, js) <==>
      t.0 == i && t.1 in js && t.2 < n && t.2 != i && t.2 != t.1
    decreases |js|
  {
    if |js| > 0 {
      SecondsMembers(n, i, js[1..]);
      var block := Thirds(i, js[0], Choices(n, {i, js[0]}));
      assert forall t: Triple :: t in block <==> t.0 == i && t.1 == js[0] && t.2 in Choices(n, {i, js[0]}) by {
        forall t | t in block ensures t.2 in Choices(n, {i, js[0]}) {
          var m :| 0 <= m < |block| && block[m] == t;
        }
        forall t: Triple | t.0 == i && t.1 == js[0] && t.2 in Choices(n, {i, js[0]}) ensures t in block {
          var ks := Choices(n, {i, js[0]});
          var m :| 0 <= m < |ks| && ks[m] == t.2;
          assert block[m] == t;
        }
      }
      assert forall j :: j in js <==> j == js[0] || j in js[1..] by {
        assert js == [js[0]] + js[1..];
      }
    }
  }

  lemma {:induction false} FirstsMembers(n: nat, firsts: seq<nat>)
    requires forall i :: i in firsts ==> i < n
    ensures forall t :: t in Firsts(n, firsts) <==> t.0 in firsts && DistinctBelow(t, n)
    decreases |firsts|
  {
    if |firsts| > 0 {
      assert forall i :: i in firsts[1..] ==> i in firsts;
      FirstsMembers(n, firsts[1..]);
      var f := firsts[0];
      assert f in firsts;
      SecondsMembers(n, f, Choices(n, {f}));
      assert forall i :: i in firsts <==> i == f || i in firsts[1..] by {
        assert firsts == [f] + firsts[1..];
      }
      forall t: Triple
        ensures t in Seconds(n, f, Choices(n, {f})) <==> t.0 == f && DistinctBelow(t, n)
      {
        assert t.1 in Choices(n, {f}) <==> t.1 < n && t.1 != f;
      }
    }
  }


  lemma {:induction false} SecondsLength(n: nat, i: nat, js: seq<nat>)
    requires i < n
    requires forall j :: j in js ==> j < n && j != i
    ensures |Seconds(n, i, js)| == |js| * (n - 2)
    decreases |js|
  {
    if |js| > 0 {
      assert forall j :: j in js[1..] ==> j in js;
      assert js[0] in js;
      var ks := Choices(n, {i, js[0]});
      SecondsLength(n, i, js[1..]);
      ChoicesCount(n, {i, js[0]});
      CountBelowTwo(n, i, js[0]);
      assert |Seconds(n, i, js)| == |ks| + |Seconds(n, i, js[1..])|;
      MulSucc(|js| - 1, n - 2);
    }
  }

  lemma {:induction false} FirstsLength(n: nat, firsts: seq<nat>)
    requires forall i :: i in firsts ==> i < n
    ensures |Firsts(n, firsts)| == |firsts| * ((n - 1) * (n - 2))
    decreases |firsts|
  {
    if |firsts| > 0 {
      var f := firsts[0];
      assert forall i :: i in firsts[1..] ==> i in firsts;
      assert f in firsts;
      var js := Choices(n, {f});
      FirstsLength(n, firsts[1..]);
      ChoicesCount(n, {f});
      CountBelowOne(n, f);
      SecondsLength(n, f, js);
      var block := (n - 1) * (n - 2);
      assert |Seconds(n, f, js)| == block;
      assert |Firsts(n, firsts)| == block + |Firsts(n, firsts[1..])|;
      MulSucc(|firsts| - 1, block);
    }
  }

  /** `P(n, 3)`: the number of ordered triples of distinct agents. */
  function PermCount(n: nat): int {
    n * (n - 1) * (n - 2)
  }

  /** `len(itertools.permutations(roster, 3))` is `n (n - 1) (n - 2)`, which
      is 0 for a roster of fewer than three agents. */
  lemma {:induction false} TriplesCount(n: nat)
    ensures |Triples(n)| == PermCount(n)
    ensures n < 3 ==> |Triples(n)| == 0
  {
    EnumerationCount(n);
  }

  /** The count of the enumeration `Triples` unfolds to. */
  lemma {:induction false} EnumerationCount(n: nat)
    ensures |Firsts(n, Choices(n, {}))| == PermCount(n)
    ensures n < 3 ==> PermCount(n) == 0
  {
    var firsts := Choices(n, {});
    ChoicesCount(n, {});
    CountBelowNone(n, {});
    assert |firsts| == n;
    FirstsLength(n, firsts);
    assert |Firsts(n, firsts)| == n * ((n - 1) * (n - 2));
    MulAssoc(n, n - 1, n - 2);
    if n == 0 {
    } else if n == 1 {
      assert PermCount(n) == 1 * 0 * -1;
    } else if n == 2 {
      assert PermCount(n) == 2 * 1 * 0;
    }
  }

  lemma {:induction false} AscendingConcat(x: seq<Triple>, y: seq<Triple>)
    requires Ascending(x) && Ascending(y)
    requires forall a, b :: a in x && b in y ==> LexLess(a, b)
    ensures Ascending(x + y)
  {
    var s := x + y;
    forall a, b | 0 <= a < b < |s| ensures LexLess(s[a], s[b]) {
      if b < |x| {
        assert s[a] == x[a] && s[b] == x[b];
      } else if a >= |x| {
        assert s[a] == y[a - |x|] && s[b] == y[b - |x|];
      } else {
        assert s[a] in x && s[b] in y;
      }
    }
  }

  lemma {:induction false} SecondsAscending(n: nat, i: nat, js: seq<nat>)
    requires forall a, b :: 0 <= a < b < |js| ==> js[a] < js[b]
    ensures Ascending(Seconds(n, i, js))
    decreases |js|
  {
    if |js| > 0 {
      SecondsAscending(n, i, js[1..]);
      SecondsMembers(n, i, js[1..]);
      var block := Thirds(i, js[0], Choices(n, {i, js[0]}));
      forall a, b | a in block && b in Seconds(n, i, js[1..]) ensures LexLess(a, b) {
        var m :| 0 <= m < |block| && block[m] == a;
        var q :| 0 <= q < |js[1..]| && js[1..][q] == b.1;
        assert js[q + 1] == b.1;
      }
      AscendingConcat(block, Seconds(n, i, js[1..]));
    }
  }

  lemma {:induction false} FirstsAscending(n: nat, firsts: seq<nat>)
    requires forall i :: i in firsts ==> i < n
    requires forall a, b :: 0 <= a < b < |firsts| ==> firsts[a] < firsts[b]
    ensures Ascending(Firsts(n, firsts))
    decreases |firsts|
  {
    if |firsts| > 0 {
      assert forall i :: i in firsts[1..] ==> i in firsts;
      FirstsAscending(n, firsts[1..]);
      FirstsMembers(n, firsts[1..]);
      SecondsAscending(n, firsts[0], Choices(n, {firsts[0]}));
      SecondsMembers(n, firsts[0], Choices(n, {firsts[0]}));
      forall a, b | a in Seconds(n, firsts[0], Choices(n, {firsts[0]})) && b in Firsts(n, firsts[1..])
        ensures LexLess(a, b)
      {
        var q :| 0 <= q < |firsts[1..]| && firsts[1..][q] == b.0;
        assert firsts[q + 1] == b.0;
      }
      AscendingConcat(Seconds(n, firsts[0], Choices(n, {firsts[0]})), Firsts(n, firsts[1..]));
    }
  }

  /** The opponents a triple names, in seat order. */
  function Pick<A>(roster: seq<A>, t: Triple): (opponents: seq<A>)
    requires DistinctBelow(t, |roster|)
  {
    [roster[t.0], roster[t.1], roster[t.2]]
  }

  /** `list(itertools.permutations(roster, 3))`. */
  function Perms<A>(roster: seq<A>): (perms: seq<seq<A>>)
    ensures |perms| == |Triples(|roster|)|
    ensures forall m :: 0 <= m < |perms| ==>
      DistinctBelow(Triples(|roster|)[m], |roster|) && perms[m] == Pick(roster, Triples(|roster|)[m])
  {
    var ts := Triples(|roster|);
    seq(|ts|, m requires 0 <= m < |ts| => Pick(roster, ts[m]))
  }

  /** An entry of the list of agents to evaluate: the class path and its
      optional constructor parameters. */
  datatype Entry<V> = Entry(path: string, params: Option<Params<V>>)

  /** What the generator yields for one match. */
  datatype Task<A, V> = Task(opponents: seq<A>, position: nat, cls: A, params: Option<Params<V>>, path: string)

  /** The key a result is filed under: `path + str(params)`, or `path` when
      there are no parameters.  `show` is Python's `str` on parameters. */
  function ResultKey<V>(path: string, params: Option<Params<V>>, show: Params<V> -> string): (k: string)
    ensures |path| <= |k| && k[..|path|] == path
    ensures params.None? ==> k == path
  {
    match params
    case None => path
    case Some(p) => path + show(p)
  }

  function EntryKey<V>(e: Entry<V>, show: Params<V> -> string): string {
    ResultKey(e.path, e.params, show)
  }

  function TaskKey<A, V>(t: Task<A, V>, show: Params<V> -> string): string {
    ResultKey(t.path, t.params, show)
  }

  /** The blocks `blk(from)`, ..., `blk(n - 1)` one after the other: the
      shape of one `for` loop whose body yields `blk(i)` on iteration `i`. */
  function Chain<T>(blk: nat -> seq<T>, from: nat, n: nat): seq<T>
    decreases n - from
  {
    if from >= n then [] else blk(from) + Chain(blk, from + 1, n)
  }

  /** Three nested loops over `range(n1)`, `range(n2)` and `range(n3)`
      whose innermost body yields `body(i, j, k)`; the three functions
      below are the bodies of the inner, middle and outer loop. */
  function InnerLoop<T>(body: (nat, nat, nat) -> seq<T>, i: nat, j: nat): nat -> seq<T> {
    (k: nat) => body(i, j, k)
  }

  function MiddleLoop<T>(body: (nat, nat, nat) -> seq<T>, n3: nat, i: nat): nat -> seq<T> {
    (j: nat) => Chain(InnerLoop(body, i, j), 0, n3)
  }

  function OuterLoop<T>(body: (nat, nat, nat) -> seq<T>, n2: nat, n3: nat): nat -> seq<T> {
    (i: nat) => Chain(MiddleLoop(body, n3, i), 0, n2)
  }

  function Nest<T>(body: (nat, nat, nat) -> seq<T>, n1: nat, n2: nat, n3: nat): seq<T> {
    Chain(OuterLoop(body, n2, n3), 0, n1)
  }

  /** The tuple `task_generator` yields for an entry, a permutation and a
      seat.  `load` is the class `cargar_agente` resolves a path to. */
  function MatchOf<A, V>(entry: Entry<V>, perm: seq<A>, pos: nat, load: string -> A): Task<A, V> {
    Task(perm, pos, load(entry.path), entry.params, entry.path)
  }

  /** The innermost body of `task_generator`: for entry `i`, permutation
      `j` and seat `pos`, `for _ in range(reps)` yields the same match. */
  function MatchBlock<A, V>(entries: seq<Entry<V>>, perms: seq<seq<A>>, reps: nat, load: string -> A)
    : (nat, nat, nat) -> seq<Task<A, V>>
  {
    (i: nat, j: nat, pos: nat) =>
      if i < |entries| && j < |perms|
      then seq(reps, _ => MatchOf(entries[i], perms[j], pos, load))
      else []
  }

  /** `task_generator` over the precomputed list of permutations:
      `for path, params in entries: for perm in perms: for pos in range(4): ...`. */
  function GenerateTasks<A, V>(entries: seq<Entry<V>>, perms: seq<seq<A>>, reps: nat, load: string -> A): (ts: seq<Task<A, V>>)
    ensures |ts| == TotalMatches(|entries|, |perms|, reps)
  {
    NestCount(entries, perms, reps, load);
    Nest(MatchBlock(entries, perms, reps, load), |entries|, |perms|, 4)
  }

  /** `total_matches = len(entries) * len(permutations) * 4 * reps`. */
  function TotalMatches(entryCount: nat, permCount: nat, reps: nat): nat {
    entryCount * permCount * 4 * reps
  }

  /** `partidas_por_agente = len(permutations) * 4 * reps`. */
  function PerAgent(permCount: nat, reps: nat): nat {
    permCount * 4 * reps
  }

  /** A task the generator may yield: a seat in 0..3, opponents taken from
      the list of permutations, and the class, parameters and path of one of
      the entries. */
  ghost predicate Scheduled<A, V>(t: Task<A, V>, entries: seq<Entry<V>>, perms: seq<seq<A>>, load: string -> A) {
    && t.position < 4
    && t.opponents in perms
    && Entry(t.path, t.params) in entries
    && t.cls == load(t.path)
  }

  /** The length of `n` consecutive blocks of width `w`, counted block by
      block, so that stepping over one block stays linear. */
  function Blocks(n: nat, w: nat): nat {
    if n == 0 then 0 else w + Blocks(n - 1, w)
  }

  lemma {:induction false} BlocksProduct(n: nat, w: nat)
    ensures Blocks(n, w) == n * w
  {
    if n > 0 {
      BlocksProduct(n - 1, w);
      MulSucc(n - 1, w);
    }
  }

  /** The sequence holds `x` at position `k`. */
  ghost predicate At<T>(s: seq<T>, k: nat, x: T) {
    k < |s| && s[k] == x
  }

  /** Position `j` of `rest` is position `|head| + j` of `head + rest`. */
  lemma ConcatAt<T>(head: seq<T>, rest: seq<T>, j: nat, k: nat, x: T)
    requires At(rest, j, x) && k == |head| + j
    ensures At(head + rest, k, x)
  {
  }

  /** Position `j` of `head` is position `j` of `head + rest`. */
  lemma PrefixAt<T>(head: seq<T>, rest: seq<T>, j: nat, x: T)
    requires At(head, j, x)
    ensures At(head + rest, j, x)
  {
  }

  /** Every block from `from` to `n` has width `w`. */
  ghost predicate Uniform<T>(blk: nat -> seq<T>, from: nat, n: nat, w: nat)
    decreases n - from
  {
    from >= n || (|blk(from)| == w && Uniform(blk, from + 1, n, w))
  }

  lemma {:induction false} ChainLength<T>(blk: nat -> seq<T>, from: nat, n: nat, w: nat, count: nat)
    requires count == n - from && Uniform(blk, from, n, w)
    ensures |Chain(blk, from, n)| == Blocks(count, w)
    decreases n - from
  {
    if from < n {
      ChainLength(blk, from + 1, n, w, count - 1);
    }
  }

  /** Everything in the chain comes from one of its blocks. */
  lemma {:induction false} ChainMember<T>(blk: nat -> seq<T>, from: nat, n: nat, x: T)
    requires x in Chain(blk, from, n)
    ensures exists k: nat :: from <= k < n && x in blk(k)
    decreases n - from
  {
    if x !in blk(from) {
      ChainMember(blk, from + 1, n, x);
    }
  }

  /** When every block has width `w`, position `i` of block `k` is
      position `j = k - from` blocks plus `i` of the chain. */
  lemma {:induction false} ChainAt<T>(blk: nat -> seq<T>, from: nat, n: nat, w: nat, k: nat, j: nat, i: nat, x: T)
    requires Uniform(blk, from, n, w)
    requires from <= k < n && j == k - from && At(blk(k), i, x)
    ensures At(Chain(blk, from, n), Blocks(j, w) + i, x)
    decreases n - from
  {
    var rest := Chain(blk, from + 1, n);
    assert Chain(blk, from, n) == blk(from) + rest;
    if k > from {
      ChainAt(blk, from + 1, n, w, k, j - 1, i, x);
      ConcatAt(blk(from), rest, Blocks(j - 1, w) + i, Blocks(j, w) + i, x);
    } else {
      PrefixAt(blk(from), rest, i, x);
    }
  }

  /** `ChainAt` for a chain that starts at block 0. */
  lemma ChainHeadAt<T>(blk: nat -> seq<T>, n: nat, w: nat, k: nat, i: nat, x: T)
    requires Uniform(blk, 0, n, w) && k < n && At(blk(k), i, x)
    ensures At(Chain(blk, 0, n), Blocks(k, w) + i, x)
  {
    ChainAt(blk, 0, n, w, k, k, i, x);
  }

  /** Every innermost body of the nest yields `w` elements. */
  ghost predicate Even<T>(body: (nat, nat, nat) -> seq<T>, n1: nat, n2: nat, n3: nat, w: nat) {
    forall i: nat, j: nat, k: nat :: i < n1 && j < n2 && k < n3 ==> |body(i, j, k)| == w
  }

  lemma {:induction false} InnerUniform<T>(body: (nat, nat, nat) -> seq<T>, n1: nat, n2: nat, n3: nat, w: nat,
                                           i: nat, j: nat, from: nat)
    requires Even(body, n1, n2, n3, w) && i < n1 && j < n2
    ensures Uniform(InnerLoop(body, i, j), from, n3, w)
    decreases n3 - from
  {
    if from < n3 {
      assert |InnerLoop(body, i, j)(from)| == w;
      InnerUniform(body, n1, n2, n3, w, i, j, from + 1);
    }
  }

  lemma InnerLength<T>(body: (nat, nat, nat) -> seq<T>, n1: nat, n2: nat, n3: nat, w: nat, i: nat, j: nat)
    requires Even(body, n1, n2, n3, w) && i < n1 && j < n2
    ensures |MiddleLoop(body, n3, i)(j)| == Blocks(n3, w)
  {
    InnerUniform(body, n1, n2, n3, w, i, j, 0);
    ChainLength(InnerLoop(body, i, j), 0, n3, w, n3);
  }

  lemma {:induction false} MiddleUniform<T>(body: (nat, nat, nat) -> seq<T>, n1: nat, n2: nat, n3: nat, w: nat,
                                            i: nat, from: nat)
    requires Even(body, n1, n2, n3, w) && i < n1
    ensures Uniform(MiddleLoop(body, n3, i), from, n2, Blocks(n3, w))
    decreases n2 - from
  {
    if from < n2 {
      InnerLength(body, n1, n2, n3, w, i, from);
      MiddleUniform(body, n1, n2, n3, w, i, from + 1);
    }
  }

  lemma MiddleLength<T>(body: (nat, nat, nat) -> seq<T>, n1: nat, n2: nat, n3: nat, w: nat, i: nat)
    requires Even(body, n1, n2, n3, w) && i < n1
    ensures |OuterLoop(body, n2, n3)(i)| == Blocks(n2, Blocks(n3, w))
  {
    MiddleUniform(body, n1, n2, n3, w, i, 0);
    ChainLength(MiddleLoop(body, n3, i), 0, n2, Blocks(n3, w), n2);
  }

  lemma {:induction false} OuterUniform<T>(body: (nat, nat, nat) -> seq<T>, n1: nat, n2: nat, n3: nat, w: nat, from: nat)
    requires Even(body, n1, n2, n3, w)
    ensures Uniform(OuterLoop(body, n2, n3), from, n1, Blocks(n2, Blocks(n3, w)))
    decreases n1 - from
  {
    if from < n1 {
      MiddleLength(body, n1, n2, n3, w, from);
      OuterUniform(body, n1, n2, n3, w, from + 1);
    }
  }

  /** The nest is `n1` blocks of `n2` blocks of `n3` bodies. */
  lemma NestLength<T>(body: (nat, nat, nat) -> seq<T>, n1: nat, n2: nat, n3: nat, w: nat)
    requires Even(body, n1, n2, n3, w)
    ensures |Nest(body, n1, n2, n3)| == Blocks(n1, Blocks(n2, Blocks(n3, w)))
  {
    OuterUniform(body, n1, n2, n3, w, 0);
    ChainLength(OuterLoop(body, n2, n3), 0, n1, Blocks(n2, Blocks(n3, w)), n1);
  }

  lemma InnerAt<T>(body: (nat, nat, nat) -> seq<T>, n1: nat, n2: nat, n3: nat, w: nat,
                   i: nat, j: nat, k: nat, r: nat, x: T)
    requires Even(body, n1, n2, n3, w) && i < n1 && j < n2 && k < n3 && At(body(i, j, k), r, x)
    ensures At(MiddleLoop(body, n3, i)(j), Blocks(k, w) + r, x)
  {
    InnerUniform(body, n1, n2, n3, w, i, j, 0);
    ChainHeadAt(InnerLoop(body, i, j), n3, w, k, r, x);
  }

  lemma MiddleAt<T>(body: (nat, nat, nat) -> seq<T>, n1: nat, n2: nat, n3: nat, w: nat,
                    i: nat, j: nat, q: nat, x: T)
    requires Even(body, n1, n2, n3, w) && i < n1 && j < n2 && At(MiddleLoop(body, n3, i)(j), q, x)
    ensures At(OuterLoop(body, n2, n3)(i), Blocks(j, Blocks(n3, w)) + q, x)
  {
    MiddleUniform(body, n1, n2, n3, w, i, 0);
    ChainHeadAt(MiddleLoop(body, n3, i), n2, Blocks(n3, w), j, q, x);
  }

  lemma OuterAt<T>(body: (nat, nat, nat) -> seq<T>, n1: nat, n2: nat, n3: nat, w: nat,
                   i: nat, q: nat, x: T)
    requires Even(body, n1, n2, n3, w) && i < n1 && At(OuterLoop(body, n2, n3)(i), q, x)
    ensures At(Nest(body, n1, n2, n3), Blocks(i, Blocks(n2, Blocks(n3, w))) + q, x)
  {
    OuterUniform(body, n1, n2, n3, w, 0);
    ChainHeadAt(OuterLoop(body, n2, n3), n1, Blocks(n2, Blocks(n3, w)), i, q, x);
  }

  /** Element `r` of body `(i, j, k)` sits in the nest after `i` outer
      blocks, `j` middle blocks and `k` bodies. */
  lemma NestAt<T>(body: (nat, nat, nat) -> seq<T>, n1: nat, n2: nat, n3: nat, w: nat,
                  i: nat, j: nat, k: nat, r: nat, x: T)
    requires Even(body, n1, n2, n3, w) && i < n1 && j < n2 && k < n3 && At(body(i, j, k), r, x)
    ensures At(Nest(body, n1, n2, n3),
               Blocks(i, Blocks(n2, Blocks(n3, w))) + (Blocks(j, Blocks(n3, w)) + (Blocks(k, w) + r)), x)
  {
    InnerAt(body, n1, n2, n3, w, i, j, k, r, x);
    MiddleAt(body, n1, n2, n3, w, i, j, Blocks(k, w) + r, x);
    OuterAt(body, n1, n2, n3, w, i, Blocks(j, Blocks(n3, w)) + (Blocks(k, w) + r), x);
  }

  /** Everything in outer block `i` comes from one of its bodies. */
  lemma OuterMember<T>(body: (nat, nat, nat) -> seq<T>, n2: nat, n3: nat, i: nat, x: T)
    requires x in OuterLoop(body, n2, n3)(i)
    ensures exists j: nat, k: nat :: j < n2 && k < n3 && x in body(i, j, k)
  {
    ChainMember(MiddleLoop(body, n3, i), 0, n2, x);
    var j: nat :| j < n2 && x in MiddleLoop(body, n3, i)(j);
    ChainMember(InnerLoop(body, i, j), 0, n3, x);
    var k: nat :| k < n3 && x in InnerLoop(body, i, j)(k);
    assert x in body(i, j, k);
  }

  /** Everything in the nest comes from one of its bodies. */
  lemma NestMember<T>(body: (nat, nat, nat) -> seq<T>, n1: nat, n2: nat, n3: nat, x: T)
    requires x in Nest(body, n1, n2, n3)
    ensures exists i: nat, j: nat, k: nat :: i < n1 && j < n2 && k < n3 && x in body(i, j, k)
  {
    ChainMember(OuterLoop(body, n2, n3), 0, n1, x);
    var i: nat :| i < n1 && x in OuterLoop(body, n2, n3)(i);
    OuterMember(body, n2, n3, i, x);
  }

  /** Every seat of every permutation of every entry gets `reps` matches. */
  lemma MatchBlockEven<A, V>(entries: seq<Entry<V>>, perms: seq<seq<A>>, reps: nat, load: string -> A)
    ensures Even(MatchBlock(entries, perms, reps, load), |entries|, |perms|, 4, reps)
  {
  }

  /** What one innermost body yields. */
  lemma MatchBlockShape<A, V>(entries: seq<Entry<V>>, perms: seq<seq<A>>, reps: nat, load: string -> A,
                              i: nat, j: nat, pos: nat, x: Task<A, V>)
    requires i < |entries| && j < |perms| && x in MatchBlock(entries, perms, reps, load)(i, j, pos)
    ensures x == MatchOf(entries[i], perms[j], pos, load)
  {
  }

  lemma MatchBlockAt<A, V>(entries: seq<Entry<V>>, perms: seq<seq<A>>, reps: nat, load: string -> A,
                           i: nat, j: nat, pos: nat, r: nat)
    requires i < |entries| && j < |perms| && r < reps
    ensures At(MatchBlock(entries, perms, reps, load)(i, j, pos), r, MatchOf(entries[i], perms[j], pos, load))
  {
  }

  /** The nested block counts multiply out to `total_matches`. */
  lemma NestCount<A, V>(entries: seq<Entry<V>>, perms: seq<seq<A>>, reps: nat, load: string -> A)
    ensures |Nest(MatchBlock(entries, perms, reps, load), |entries|, |perms|, 4)| == TotalMatches(|entries|, |perms|, reps)
  {
    MatchBlockEven(entries, perms, reps, load);
    NestLength(MatchBlock(entries, perms, reps, load), |entries|, |perms|, 4, reps);
    BlocksProduct(4, reps);
    BlocksProduct(|perms|, 4 * reps);
    BlocksProduct(|entries|, |perms| * (4 * reps));
    var a, p := |entries|, |perms|;
    MulAssoc(a, p, 4);
    MulAssoc(a * p, 4, reps);
    MulAssoc(p, 4, reps);
    MulAssoc(a, p * 4, reps);
  }

  /** Every task the generator yields is a well-formed match of one of the
      entries. */
  lemma GeneratedShape<A, V>(entries: seq<Entry<V>>, perms: seq<seq<A>>, reps: nat, load: string -> A)
    ensures forall t :: t in GenerateTasks(entries, perms, reps, load) ==> Scheduled(t, entries, perms, load)
  {
    forall t | t in GenerateTasks(entries, perms, reps, load)
      ensures Scheduled(t, entries, perms, load)
    {
      var body := MatchBlock(entries, perms, reps, load);
      NestMember(body, |entries|, |perms|, 4, t);
      var i: nat, j: nat, pos: nat :| i < |entries| && j < |perms| && pos < 4 && t in body(i, j, pos);
      MatchBlockShape(entries, perms, reps, load, i, j, pos, t);
      assert Entry(t.path, t.params) == entries[i];
    }
  }

  /** The number of matches yielded before iteration `(e, t, s, r)` of the
      loops over entries, `p` permutations, four seats and `reps`
      repetitions. */
  function LoopPosition(e: nat, p: nat, t: nat, s: nat, reps: nat, r: nat): nat {
    ((e * p + t) * 4 + s) * reps + r
  }

  /** The block offsets of the three loop levels add up to the flat index. */
  lemma BlocksLoopIndex(e: nat, p: nat, t: nat, s: nat, reps: nat, r: nat)
    ensures Blocks(e, Blocks(p, Blocks(4, reps))) + (Blocks(t, Blocks(4, reps)) + (Blocks(s, reps) + r))
         == LoopPosition(e, p, t, s, reps, r)
  {
    BlocksProduct(4, reps);
    BlocksProduct(s, reps);
    BlocksProduct(t, 4 * reps);
    BlocksProduct(p, 4 * reps);
    BlocksProduct(e, p * (4 * reps));
    LoopIndex(e, p, t, s, reps, r);
  }

  /** Full coverage, in the order of the nested loops: for every entry,
      permutation, seat and repetition the generator yields that match, at
      the position the loops reach it.  With the count above, every such
      combination is yielded exactly once and nothing else is. */
  lemma GeneratedCoverage<A, V>(entries: seq<Entry<V>>, perms: seq<seq<A>>, reps: nat, load: string -> A,
                                e: nat, t: nat, s: nat, r: nat)
    requires e < |entries| && t < |perms| && s < 4 && r < reps
    ensures var k := LoopPosition(e, |perms|, t, s, reps, r);
      && k < TotalMatches(|entries|, |perms|, reps)
      && At(GenerateTasks(entries, perms, reps, load), k, MatchOf(entries[e], perms[t], s, load))
  {
    NestCoverage(entries, perms, reps, load, e, t, s, r);
  }

  /** The coverage of the loop nest `GenerateTasks` unfolds to. */
  lemma NestCoverage<A, V>(entries: seq<Entry<V>>, perms: seq<seq<A>>, reps: nat, load: string -> A,
                           e: nat, t: nat, s: nat, r: nat)
    requires e < |entries| && t < |perms| && s < 4 && r < reps
    ensures var k := LoopPosition(e, |perms|, t, s, reps, r);
      && k < TotalMatches(|entries|, |perms|, reps)
      && At(Nest(MatchBlock(entries, perms, reps, load), |entries|, |perms|, 4), k, MatchOf(entries[e], perms[t], s, load))
  {
    NestCount(entries, perms, reps, load);
    MatchBlockEven(entries, perms, reps, load);
    MatchBlockAt(entries, perms, reps, load, e, t, s, r);
    NestAt(MatchBlock(entries, perms, reps, load), |entries|, |perms|, 4, reps, e, t, s, r,
           MatchOf(entries[e], perms[t], s, load));
    BlocksLoopIndex(e, |perms|, t, s, reps, r);
  }

  /** The keys of the tasks, in generation order. */
  function TaskKeys<A, V>(tasks: seq<Task<A, V>>, show: Params<V> -> string): (ks: seq<string>)
    ensures |ks| == |tasks|
    ensures forall m :: 0 <= m < |tasks| ==> ks[m] == TaskKey(tasks[m], show)
  {
    seq(|tasks|, m requires 0 <= m < |tasks| => TaskKey(tasks[m], show))
  }

  lemma TaskKeysConcat<A, V>(a: seq<Task<A, V>>, b: seq<Task<A, V>>, show: Params<V> -> string)
    ensures TaskKeys(a + b, show) == TaskKeys(a, show) + TaskKeys(b, show)
  {
  }

  /** Entries whose result keys are pairwise distinct. */
  predicate DistinctEntryKeys<V>(entries: seq<Entry<V>>, show: Params<V> -> string) {
    forall a, b :: 0 <= a < b < |entries| ==> EntryKey(entries[a], show) != EntryKey(entries[b], show)
  }

  /** The tasks of entry `i` all carry the entry's key. */
  lemma {:induction false} EntryTasksKeys<A, V>(entries: seq<Entry<V>>, perms: seq<seq<A>>, reps: nat, load: string -> A,
                                                show: Params<V> -> string, i: nat, k: string)
    requires i < |entries|
    ensures multiset(TaskKeys(OuterLoop(MatchBlock(entries, perms, reps, load), |perms|, 4)(i), show))[k]
         == if k == EntryKey(entries[i], show) then PerAgent(|perms|, reps) else 0
  {
    var body := MatchBlock(entries, perms, reps, load);
    var tasks := OuterLoop(body, |perms|, 4)(i);
    MatchBlockEven(entries, perms, reps, load);
    MiddleLength(body, |entries|, |perms|, 4, reps, i);
    BlocksProduct(4, reps);
    BlocksProduct(|perms|, 4 * reps);
    MulAssoc(|perms|, 4, reps);
    var ks := TaskKeys(tasks, show);
    forall m | 0 <= m < |ks| ensures ks[m] == EntryKey(entries[i], show) {
      var x := tasks[m];
      OuterMember(body, |perms|, 4, i, x);
      var j: nat, pos: nat :| j < |perms| && pos < 4 && x in body(i, j, pos);
      MatchBlockShape(entries, perms, reps, load, i, j, pos, x);
    }
    SameKeyCount(ks, EntryKey(entries[i], show), k);
  }

  lemma {:induction false} SameKeyCount(ks: seq<string>, key: string, k: string)
    requires forall m :: 0 <= m < |ks| ==> ks[m] == key
    ensures multiset(ks)[k] == if k == key then |ks| else 0
  {
    if |ks| > 0 {
      SameKeyCount(ks[1..], key, k);
      assert ks == [ks[0]] + ks[1..];
    }
  }

  /** Counting a key over a chain: the first block, then the rest. */
  lemma ChainKeysSplit<A, V>(blk: nat -> seq<Task<A, V>>, from: nat, n: nat, show: Params<V> -> string, k: string)
    requires from < n
    ensures multiset(TaskKeys(Chain(blk, from, n), show))[k]
         == multiset(TaskKeys(blk(from), show))[k] + multiset(TaskKeys(Chain(blk, from + 1, n), show))[k]
  {
    assert Chain(blk, from, n) == blk(from) + Chain(blk, from + 1, n);
    TaskKeysConcat(blk(from), Chain(blk, from + 1, n), show);
  }

  /** A key that no block carries is carried by none of the chain's tasks. */
  lemma {:induction false} ChainKeyNone<A, V>(blk: nat -> seq<Task<A, V>>, from: nat, n: nat, show: Params<V> -> string, k: string)
    requires forall j :: from <= j < n ==> multiset(TaskKeys(blk(j), show))[k] == 0
    ensures multiset(TaskKeys(Chain(blk, from, n), show))[k] == 0
    decreases n - from
  {
    if from < n {
      ChainKeysSplit(blk, from, n, show, k);
      ChainKeyNone(blk, from + 1, n, show, k);
    }
  }

  /** A key that only block `m` carries, `c` times, is carried `c` times
      by the chain. */
  lemma {:induction false} ChainKeyOnce<A, V>(blk: nat -> seq<Task<A, V>>, from: nat, n: nat, show: Params<V> -> string,
                                              k: string, m: nat, c: nat)
    requires from <= m < n
    requires forall j :: from <= j < n ==> multiset(TaskKeys(blk(j), show))[k] == if j == m then c else 0
    ensures multiset(TaskKeys(Chain(blk, from, n), show))[k] == c
    decreases n - from
  {
    ChainKeysSplit(blk, from, n, show, k);
    if m == from {
      ChainKeyNone(blk, from + 1, n, show, k);
    } else {
      ChainKeyOnce(blk, from + 1, n, show, k, m, c);
    }
  }

  /** Distinct entries have distinct keys. */
  lemma DistinctKeysAt<V>(entries: seq<Entry<V>>, show: Params<V> -> string, a: nat, b: nat)
    requires DistinctEntryKeys(entries, show) && a < |entries| && b < |entries| && a != b
    ensures EntryKey(entries[a], show) != EntryKey(entries[b], show)
  {
  }

  /** With distinct result keys, every entry's key is carried by exactly
      `partidas_por_agente` tasks, the count the summary divides by. */
  lemma TasksPerKey<A, V>(entries: seq<Entry<V>>, perms: seq<seq<A>>, reps: nat, load: string -> A,
                          show: Params<V> -> string, m: nat)
    requires DistinctEntryKeys(entries, show)
    requires m < |entries|
    ensures multiset(TaskKeys(GenerateTasks(entries, perms, reps, load), show))[EntryKey(entries[m], show)]
         == PerAgent(|perms|, reps)
  {
    var blk := OuterLoop(MatchBlock(entries, perms, reps, load), |perms|, 4);
    var k := EntryKey(entries[m], show);
    forall j | 0 <= j < |entries|
      ensures multiset(TaskKeys(blk(j), show))[k] == if j == m then PerAgent(|perms|, reps) else 0
    {
      EntryTasksKeys(entries, perms, reps, load, show, j, k);
      if j != m {
        DistinctKeysAt(entries, show, j, m);
      }
    }
    ChainKeyOnce(blk, 0, |entries|, show, k, m, PerAgent(|perms|, reps));
  }

  /** A key that no entry has is carried by no task. */
  lemma KeyAbsent<A, V>(entries: seq<Entry<V>>, perms: seq<seq<A>>, reps: nat, load: string -> A,
                        show: Params<V> -> string, k: string)
    requires forall j :: 0 <= j < |entries| ==> EntryKey(entries[j], show) != k
    ensures multiset(TaskKeys(GenerateTasks(entries, perms, reps, load), show))[k] == 0
  {
    var blk := OuterLoop(MatchBlock(entries, perms, reps, load), |perms|, 4);
    forall j | 0 <= j < |entries|
      ensures multiset(TaskKeys(blk(j), show))[k] == 0
    {
      EntryTasksKeys(entries, perms, reps, load, show, j, k);
    }
    ChainKeyNone(blk, 0, |entries|, show, k);
  }
}

=== FILE: stable_sort.dfy ===
/** Python's `sorted(items, key=f, reverse=True)`: a stable sort into
    non-increasing key order.  Stability survives `reverse=True`, so items
    with equal keys keep their original relative order.  The model is an
    insertion sort that places each item in front of the first item whose key
    is not greater than its own. */
module StableSort {

  predicate Descending<T>(s: seq<T>, key: T -> real) {
    forall i, j :: 0 <= i < j < |s| ==> key(s[i]) >= key(s[j])
  }

  /** Number of leading items of `t` whose key is strictly above `key(x)`:
      where `x` goes. */
  function InsertIndex<T>(x: T, t: seq<T>, key: T -> real): (i: nat)
    ensures i <= |t|
    ensures forall j :: 0 <= j < i ==> key(t[j]) > key(x)
    ensures i < |t| ==> key(t[i]) <= key(x)
  {
    if |t| == 0 || key(x) >= key(t[0]) then 0
    else 1 + InsertIndex(x, t[1..], key)
  }

  /** Places `x` in front of the first item of `t` whose key does not
      exceed its own. */
  function Insert<T>(x: T, t: seq<T>, key: T -> real): (r: seq<T>)
    ensures |r| == |t| + 1
  {
    if |t| == 0 || key(x) >= key(t[0]) then [x] + t
    else [t[0]] + Insert(x, t[1..], key)
  }

  /** Insert splices `x` in at InsertIndex and leaves the rest of `t` as it was. */
  lemma {:induction false} InsertSplice<T>(x: T, t: seq<T>, key: T -> real)
    ensures Insert(x, t, key) == t[..InsertIndex(x, t, key)] + [x] + t[InsertIndex(x, t, key)..]
  {
    if |t| > 0 && key(x) < key(t[0]) {
      InsertSplice(x, t[1..], key);
      assert t[..InsertIndex(x, t, key)] == [t[0]] + t[1..][..InsertIndex(x, t[1..], key)];
    }
  }

  /** The stable descending sort. */
  function SortDesc<T>(s: seq<T>, key: T -> real): (r: seq<T>)
    ensures multiset(r) == multiset(s)
    ensures |r| == |s|
    ensures Descending(r, key)
  {
    if |s| == 0 then []
    else
      var t := SortDesc(s[1..], key);
      SortStep(s, t, key);
      Insert(s[0], t, key)
  }

  /** Inserting the head into the sorted tail sorts the whole sequence. */
  lemma SortStep<T>(s: seq<T>, t: seq<T>, key: T -> real)
    requires |s| > 0 && multiset(t) == multiset(s[1..]) && Descending(t, key)
    ensures multiset(Insert(s[0], t, key)) == multiset(s)
    ensures |Insert(s[0], t, key)| == |s|
    ensures Descending(Insert(s[0], t, key), key)
  {
    InsertKeepsOrder(s[0], t, key);
    InsertMultiset(s[0], t, key);
    assert s == [s[0]] + s[1..];
    assert |Insert(s[0], t, key)| == |multiset(Insert(s[0], t, key))| == |multiset(s)|;
  }

  /** Inserting into a descending sequence keeps it descending. */
  lemma InsertKeepsOrder<T>(x: T, t: seq<T>, key: T -> real)
    requires Descending(t, key)
    ensures Descending(Insert(x, t, key), key)
  {
    var i := InsertIndex(x, t, key);
    var r := Insert(x, t, key);
    InsertAt(x, t, key);
    forall a, b | 0 <= a < b < |r| ensures key(r[a]) >= key(r[b]) {
      if b < i {
      } else if b == i {
      } else if a < i {
        assert key(t[a]) >= key(t[i]);
      } else if a == i {
        assert key(t[b - 1]) <= key(t[i]);
      } else {
      }
    }
  }

  /** Insert adds `x` and nothing else. */
  lemma {:induction false} InsertMultiset<T>(x: T, t: seq<T>, key: T -> real)
    ensures multiset(Insert(x, t, key)) == multiset(t) + multiset{x}
  {
    if |t| > 0 && key(x) < key(t[0]) {
      InsertMultiset(x, t[1..], key);
      assert t == [t[0]] + t[1..];
    }
  }

  /** Where each item of `t` ends up once `x` is inserted. */
  lemma InsertAt<T>(x: T, t: seq<T>, key: T -> real)
    ensures var i, r := InsertIndex(x, t, key), Insert(x, t, key);
      && |r| == |t| + 1 && r[i] == x
      && (forall k :: 0 <= k < i ==> r[k] == t[k])
      && (forall k :: i < k < |r| ==> r[k] == t[k - 1])
  {
    InsertSplice(x, t, key);
  }

  /** Stability, in the form a caller can observe: a list that is already in
      order comes back unchanged, ties included. */
  lemma {:induction false} SortDescKeepsSorted<T>(s: seq<T>, key: T -> real)
    requires Descending(s, key)
    ensures SortDesc(s, key) == s
  {
    if |s| > 0 {
      assert Descending(s[1..], key);
      SortDescKeepsSorted(s[1..], key);
      assert s == [s[0]] + s[1..];
    }
  }
}

=== FILE: standings.dfy ===
/** What one match means for the evaluated seat, read from the final
    victory-point mapping of the trace: its points, whether it won, and its
    place.  The mapping is a dictionary in the engine's seat order, and that
    order decides ties. */
module Standings {
  import opened Wrappers
  import opened Dicts
  import opened IntText
  import opened MaxSelect
  import opened StableSort

  /** One match from the evaluated seat's point of view. */
  datatype Outcome = Outcome(victory: int, points: int, rank: int)

  /** Rank the scripts assign when the seat is not found. */
  const DefaultRank := 4

  /** The outcome recorded for a match that could not be scored. */
  const Fallback := Outcome(0, 0, DefaultRank)

  /** Victory is 0 or 1, the rank is a place (at least 1), and a seat has won
      exactly when it is placed first. */
  predicate ValidOutcome(o: Outcome) {
    && 0 <= o.victory <= 1
    && o.rank >= 1
    && (o.victory == 1 <==> o.rank == 1)
  }

  /** The trace's name for the seat at `position`: `J{position}`. */
  function SeatId(position: int): (id: string)
    ensures |id| > 1 && id[0] == 'J'
  {
    "J" + IntToString(position)
  }

  lemma SeatIdInjective(p: int, q: int)
    requires SeatId(p) == SeatId(q)
    ensures p == q
  {
    assert IntToString(p) == SeatId(p)[1..];
    assert IntToString(q) == SeatId(q)[1..];
    IntToStringInjective(p, q);
  }

  /** Points are ints; the sort compares them as numbers. */
  function PointsKey(e: (string, int)): real {
    e.1 as real
  }

  /** Number of seats with strictly more than `v` points. */
  function CountAbove(s: seq<(string, int)>, v: int): (c: nat)
    ensures c <= |s|
    ensures c == 0 <==> forall i :: 0 <= i < |s| ==> s[i].1 <= v
    ensures c == |s| <==> forall i :: 0 <= i < |s| ==> s[i].1 > v
  {
    if |s| == 0 then 0
    else (if s[0].1 > v then 1 else 0) + CountAbove(s[1..], v)
  }

  /** Number of seats with at least `v` points. */
  function CountAtLeast(s: seq<(string, int)>, v: int): (c: nat)
    ensures c <= |s|
    ensures c == 0 <==> forall i :: 0 <= i < |s| ==> s[i].1 < v
  {
    if |s| == 0 then 0
    else (if s[0].1 >= v then 1 else 0) + CountAtLeast(s[1..], v)
  }

  /** The seats a stable descending sort puts before seat `p`: earlier seats
      with at least as many points and later seats with more. */
  function Ahead(vp: seq<(string, int)>, p: nat): (n: nat)
    requires p < |vp|
    ensures n < |vp|
  {
    CountAtLeast(vp[..p], vp[p].1) + CountAbove(vp[p + 1..], vp[p].1)
  }

  /** `max(vp, key=points)`: the first seat holding the top score. */
  function Winner(vp: Dict<string, int>): (w: string)
    requires |vp| > 0
    ensures w in Keys(vp)
  {
    vp[FirstMax(Values(vp))].0
  }

  /** The place of `seat` in `sorted(vp.items(), key=points, reverse=True)`,
      counted from 1, or DefaultRank when the seat is absent. */
  function RankOf(vp: Dict<string, int>, seat: string): (rank: int)
    ensures seat !in Keys(vp) ==> rank == DefaultRank
    ensures seat in Keys(vp) ==> rank == 1 + Ahead(vp, IndexOf(vp, seat))
  {
    var ordered := SortDesc(vp, PointsKey);
    var idx := IndexOf(ordered, seat);
    if seat in Keys(vp) then
      var p := IndexOf(vp, seat);
      RankIsSeatsAhead(vp, p);
      idx + 1
    else
      AbsentFromRanking(vp, seat);
      if idx < |ordered| then idx + 1 else DefaultRank
  }

  /** The evaluated seat's outcome: None stands for the KeyError raised when
      the mapping has no entry for the seat. */
  function Score(vp: Dict<string, int>, position: int): (r: Option<Outcome>)
    ensures r.None? <==> SeatId(position) !in Keys(vp)
    ensures r.Some? ==>
      var p := IndexOf(vp, SeatId(position));
      && p < |vp|
      && r.value.points == vp[p].1
      && (r.value.victory == 1 <==> IsFirstMax(Values(vp), p))
      && r.value.rank == 1 + Ahead(vp, p)
      && 1 <= r.value.rank <= |vp|
      && ValidOutcome(r.value)
  {
    var seat := SeatId(position);
    match Get(vp, seat)
    case None => None
    case Some(points) =>
      var p := IndexOf(vp, seat);
      WinnerIsFirstMax(vp, p);
      AheadZeroIffFirstMax(vp, p);
      var victory := if Winner(vp) == seat then 1 else 0;
      Some(Outcome(victory, points, RankOf(vp, seat)))
  }

  /** The seat `max` returns is the seat at `p` exactly when `p` is the
      first index holding the top score. */
  lemma WinnerIsFirstMax(vp: Dict<string, int>, p: nat)
    requires p < |vp|
    ensures Winner(vp) == vp[p].0 <==> IsFirstMax(Values(vp), p)
  {
    var w := FirstMax(Values(vp));
    if IsFirstMax(Values(vp), p) {
      FirstMaxUnique(Values(vp), w, p);
    }
    if Winner(vp) == vp[p].0 {
      IndexOfUnique(vp, w);
      IndexOfUnique(vp, p);
    }
  }

  lemma {:induction false} CountAboveConcat(a: seq<(string, int)>, b: seq<(string, int)>, v: int)
    ensures CountAbove(a + b, v) == CountAbove(a, v) + CountAbove(b, v)
  {
    if |a| == 0 {
      assert a + b == b;
    } else {
      assert (a + b)[1..] == a[1..] + b;
      CountAboveConcat(a[1..], b, v);
    }
  }

  /** Sorting does not change how many seats beat a score. */
  lemma {:induction false} CountAboveSorted(s: seq<(string, int)>, v: int)
    ensures CountAbove(SortDesc(s, PointsKey), v) == CountAbove(s, v)
  {
    if |s| > 0 {
      var t := SortDesc(s[1..], PointsKey);
      CountAboveSorted(s[1..], v);
      CountAboveInsert(s[0], t, v);
    }
  }

  lemma CountAboveInsert(x: (string, int), t: seq<(string, int)>, v: int)
    ensures CountAbove(Insert(x, t, PointsKey), v) == CountAbove(t, v) + CountAbove([x], v)
  {
    var i := InsertIndex(x, t, PointsKey);
    var a, b := t[..i], t[i..];
    InsertSplice(x, t, PointsKey);
    assert t == a + b;
    CountAboveConcat(a, b, v);
    CountAboveConcat(a, [x], v);
    CountAboveConcat(a + [x], b, v);
  }

  /** In a descending ranking, a new entry goes after exactly the entries
      that beat it. */
  lemma {:induction false} InsertIndexCountsAbove(x: (string, int), t: seq<(string, int)>)
    requires Descending(t, PointsKey)
    ensures InsertIndex(x, t, PointsKey) == CountAbove(t, x.1)
  {
    if |t| == 0 {
    } else if x.1 >= t[0].1 {
      forall j | 0 <= j < |t| ensures t[j].1 <= x.1 {
        assert j > 0 ==> PointsKey(t[0]) >= PointsKey(t[j]);
      }
    } else {
      assert Descending(t[1..], PointsKey) by {
        forall i, j | 0 <= i < j < |t| - 1 ensures PointsKey(t[1..][i]) >= PointsKey(t[1..][j]) {
          assert PointsKey(t[i + 1]) >= PointsKey(t[j + 1]);
        }
      }
      InsertIndexCountsAbove(x, t[1..]);
    }
  }

  /** A seat that is not in the mapping is not in its ranking either. */
  lemma AbsentFromRanking(vp: seq<(string, int)>, seat: string)
    requires seat !in Keys(vp)
    ensures IndexOf(SortDesc(vp, PointsKey), seat) == |vp|
  {
    var ordered := SortDesc(vp, PointsKey);
    forall j | 0 <= j < |ordered| ensures ordered[j].0 != seat {
      assert ordered[j] in multiset(vp);
      var m :| 0 <= m < |vp| && vp[m] == ordered[j];
      assert Keys(vp)[m] == vp[m].0;
    }
  }

  /** Inserting `x` shifts an entry with another key by one exactly when
      `x` lands in front of it. */
  lemma IndexOfAfterInsert(x: (string, int), t: seq<(string, int)>, k: string)
    requires x.0 != k
    ensures var q, i := IndexOf(t, k), InsertIndex(x, t, PointsKey);
      IndexOf(Insert(x, t, PointsKey), k) == if q < i then q else q + 1
  {
    var i := InsertIndex(x, t, PointsKey);
    var a, b := t[..i], t[i..];
    InsertSplice(x, t, PointsKey);
    assert Insert(x, t, PointsKey) == a + ([x] + b);
    assert t == a + b;
    IndexOfConcat(a, b, k);
    IndexOfSpliced(a, x, b, k);
  }

  /** Splicing an entry with another key into a list shifts the key's index
      by one when it lies after the splice point. */
  lemma IndexOfSpliced<V>(a: seq<(string, V)>, x: (string, V), b: seq<(string, V)>, k: string)
    requires x.0 != k
    ensures IndexOf(a + ([x] + b), k) == if IndexOf(a, k) < |a| then IndexOf(a, k) else |a| + 1 + IndexOf(b, k)
  {
    IndexOfConcat(a, [x] + b, k);
    assert ([x] + b)[1..] == b;
  }

  /** An entry whose key is new lands at its InsertIndex. */
  lemma IndexOfInserted(x: (string, int), t: seq<(string, int)>)
    requires forall j :: 0 <= j < |t| ==> t[j].0 != x.0
    ensures IndexOf(Insert(x, t, PointsKey), x.0) == InsertIndex(x, t, PointsKey)
  {
    var i := InsertIndex(x, t, PointsKey);
    var a, b := t[..i], t[i..];
    InsertSplice(x, t, PointsKey);
    IndexOfConcat(a, [x] + b, x.0);
    assert a + [x] + b == a + ([x] + b);
  }

  /** The place a stable descending sort gives seat `p` is one past the
      number of seats Ahead of it. */
  lemma {:induction false} RankIsSeatsAhead(s: seq<(string, int)>, p: nat)
    requires DistinctKeys(s) && p < |s|
    ensures IndexOf(SortDesc(s, PointsKey), s[p].0) == Ahead(s, p)
  {
    if p == 0 {
      RankOfFirstSeat(s);
    } else {
      assert DistinctKeys(s[1..]);
      assert s[1..][p - 1] == s[p];
      RankIsSeatsAhead(s[1..], p - 1);
      RankOfLaterSeat(s, p);
    }
  }

  /** The first seat lands after exactly the seats that beat it. */
  lemma RankOfFirstSeat(s: seq<(string, int)>)
    requires DistinctKeys(s) && 0 < |s|
    ensures IndexOf(SortDesc(s, PointsKey), s[0].0) == Ahead(s, 0)
  {
    var x, rest := s[0], s[1..];
    var t := SortDesc(rest, PointsKey);
    SortDescUnfold(s);
    FirstSeatNotRanked(s);
    IndexOfInserted(x, t);
    InsertIndexCountsAbove(x, t);
    CountAboveSorted(rest, x.1);
    assert s[..0] == [];
  }

  /** The first seat's key is not among the ranked later seats. */
  lemma FirstSeatNotRanked(s: seq<(string, int)>)
    requires DistinctKeys(s) && 0 < |s|
    ensures var t := SortDesc(s[1..], PointsKey);
      forall j :: 0 <= j < |t| ==> t[j].0 != s[0].0
  {
    var rest := s[1..];
    assert s[0].0 !in Keys(rest) by {
      forall m | 0 <= m < |rest| ensures Keys(rest)[m] != s[0].0 {
        assert rest[m] == s[m + 1];
      }
    }
    AbsentFromRanking(rest, s[0].0);
  }

  /** Induction step: a later seat's place among all seats follows from its
      place among the seats after the first. */
  lemma RankOfLaterSeat(s: seq<(string, int)>, p: nat)
    requires DistinctKeys(s) && 0 < p < |s|
    requires IndexOf(SortDesc(s[1..], PointsKey), s[p].0) == Ahead(s[1..], p - 1)
    ensures IndexOf(SortDesc(s, PointsKey), s[p].0) == Ahead(s, p)
  {
    var rest := s[1..];
    var t := SortDesc(rest, PointsKey);
    SortDescUnfold(s);
    assert rest[p - 1] == s[p];
    assert DistinctKeys(rest);
    SortedEntryIsOriginal(rest, p - 1);
    var q := IndexOf(t, s[p].0);
    assert q == Ahead(rest, p - 1) < |t|;
    assert t[q] == s[p];
    AheadStep(s, p);
    RankStepAhead(s, p, t);
    assert SortDesc(s, PointsKey) == Insert(s[0], t, PointsKey);
  }

  /** The arithmetic of the induction step, with the ranking of the later
      seats given as `t`. */
  lemma RankStepAhead(s: seq<(string, int)>, p: nat, t: seq<(string, int)>)
    requires DistinctKeys(s) && 0 < p < |s|
    requires Descending(t, PointsKey)
    requires IndexOf(t, s[p].0) == Ahead(s[1..], p - 1)
    requires IndexOf(t, s[p].0) < |t| && t[IndexOf(t, s[p].0)] == s[p]
    requires Ahead(s, p) == Ahead(s[1..], p - 1) + (if s[0].1 >= s[p].1 then 1 else 0)
    ensures IndexOf(Insert(s[0], t, PointsKey), s[p].0) == Ahead(s, p)
  {
    RankStep(s[0], t, s[p].0, s[p].1);
  }

  lemma SortDescUnfold(s: seq<(string, int)>)
    requires |s| > 0
    ensures SortDesc(s, PointsKey) == Insert(s[0], SortDesc(s[1..], PointsKey), PointsKey)
  {
  }

  /** Seats Ahead of seat `p` in `s`: those Ahead of it among the later
      seats, plus the first seat if it has at least as many points. */
  lemma AheadStep(s: seq<(string, int)>, p: nat)
    requires 0 < p < |s|
    ensures Ahead(s, p) == Ahead(s[1..], p - 1) + (if s[0].1 >= s[p].1 then 1 else 0)
  {
    var rest := s[1..];
    assert rest[p - 1] == s[p];
    assert s[..p] == [s[0]] + rest[..p - 1];
    assert s[p + 1..] == rest[p..];
  }

  /** Inserting `x` in front of the entry `(k, v)` of a ranking moves that
      entry back one place exactly when `x` has at least `v` points. */
  lemma RankStep(x: (string, int), t: seq<(string, int)>, k: string, v: int)
    requires Descending(t, PointsKey)
    requires x.0 != k
    requires IndexOf(t, k) < |t| && t[IndexOf(t, k)] == (k, v)
    ensures IndexOf(Insert(x, t, PointsKey), k) == IndexOf(t, k) + (if x.1 >= v then 1 else 0)
  {
    IndexOfAfterInsert(x, t, k);
    if InsertIndex(x, t, PointsKey) <= IndexOf(t, k) {
      InsertedInFront(x, t, IndexOf(t, k));
    } else {
      InsertedBehind(x, t, IndexOf(t, k));
    }
  }

  /** An entry `x` inserted at or before place `q` has at least the points
      of the entry at `q`. */
  lemma InsertedInFront(x: (string, int), t: seq<(string, int)>, q: nat)
    requires Descending(t, PointsKey)
    requires InsertIndex(x, t, PointsKey) <= q < |t|
    ensures x.1 >= t[q].1
  {
    var i := InsertIndex(x, t, PointsKey);
    assert PointsKey(t[i]) <= PointsKey(x);
    assert i < q ==> PointsKey(t[i]) >= PointsKey(t[q]);
  }

  /** An entry `x` inserted after place `q` has fewer points than the entry
      at `q`. */
  lemma InsertedBehind(x: (string, int), t: seq<(string, int)>, q: nat)
    requires q < InsertIndex(x, t, PointsKey)
    ensures q < |t| && x.1 < t[q].1
  {
    assert PointsKey(t[q]) > PointsKey(x);
  }

  /** In the ranking, the entry found under a seat's key is that seat's own
      entry (keys are distinct), so it carries the seat's points. */
  lemma SortedEntryIsOriginal(s: seq<(string, int)>, p: nat)
    requires DistinctKeys(s) && p < |s|
    requires IndexOf(SortDesc(s, PointsKey), s[p].0) == Ahead(s, p)
    ensures var t := SortDesc(s, PointsKey); t[IndexOf(t, s[p].0)] == s[p]
  {
    var t := SortDesc(s, PointsKey);
    var q := IndexOf(t, s[p].0);
    assert t[q] in multiset(s);
    var m :| 0 <= m < |s| && s[m] == t[q];
  }

  /** Nobody is Ahead of a seat exactly when it is the first seat with the
      top score, i.e. the one `max` returns. */
  lemma AheadZeroIffFirstMax(vp: seq<(string, int)>, p: nat)
    requires p < |vp|
    ensures Ahead(vp, p) == 0 <==> IsFirstMax(Values(vp), p)
  {
    var v := vp[p].1;
    var before, after := vp[..p], vp[p + 1..];
    assert forall j :: 0 <= j < |before| ==> before[j] == vp[j];
    assert forall j :: 0 <= j < |after| ==> after[j] == vp[p + 1 + j];
    if IsFirstMax(Values(vp), p) {
      assert forall j :: 0 <= j < |before| ==> before[j].1 < v;
      assert forall j :: 0 <= j < |after| ==> after[j].1 <= v;
    }
    if Ahead(vp, p) == 0 {
      forall j | 0 <= j < |vp| ensures Values(vp)[j] <= v {
        if j < p {
          assert before[j].1 < v;
        } else if j > p {
          assert after[j - p - 1].1 <= v;
        }
      }
    }
  }

  /** The tie case: with J0 and J1 both on the top score, the seat at
      position 1 is not the winner (J0 comes first in the mapping) and is
      placed second.  With 10, 10, 5 and 0 points this is the outcome
      (0, 10, 2). */
  lemma TieGoesToEarlierSeat(vp: Dict<string, int>, top: int, third: int, fourth: int)
    requires vp == [("J0", top), ("J1", top), ("J2", third), ("J3", fourth)]
    requires third < top && fourth < top
    ensures Score(vp, 1) == Some(Outcome(0, top, 2))
  {
    assert NatToDigits(1) == "1";
    assert SeatId(1) == "J1";
    assert Keys(vp)[1] == "J1";
    IndexOfUnique(vp, 1);
    assert !IsFirstMax(Values(vp), 1) by {
      assert Values(vp)[0] == top && Values(vp)[1] == top;
    }
    assert vp[..1] == [("J0", top)];
    assert vp[2..] == [("J2", third), ("J3", fourth)];
    assert CountAtLeast(vp[..1], top) == 1;
    assert CountAbove(vp[2..], top) == 0;
    var r := Score(vp, 1);
    assert r.Some?;
  }
}

=== FILE: trace_keys.dfy ===
/** Reading the round and turn keys of the engine's trace.  A round key is
    ordered by the integer after its final `_`; a turn key likewise, once the
    leading `P`s of that suffix are stripped.  The comparison is numeric, so
    `round_10` comes after `round_9`. */
module TraceKeys {
  import opened Wrappers
  import opened Dicts
  import opened IntText
  import opened MaxSelect

  datatype KeyKind = RoundKey | TurnKey

  /** `s.split("_")[-1]`: the text after the final underscore, or all of `s`. */
  function LastSegment(s: string): (r: string)
    ensures '_' !in r
    ensures |r| <= |s| && r == s[|s| - |r|..]
    ensures |r| < |s| ==> s[|s| - |r| - 1] == '_'
  {
    if |s| == 0 || s[|s| - 1] == '_' then ""
    else LastSegment(s[..|s| - 1]) + [s[|s| - 1]]
  }

  /** `s.lstrip(c)`: `s` without its leading run of `c`. */
  function LStrip(s: string, c: char): (r: string)
    ensures |r| <= |s| && r == s[|s| - |r|..]
    ensures forall i :: 0 <= i < |s| - |r| ==> s[i] == c
    ensures |r| > 0 ==> r[0] != c
    ensures '_' !in s ==> '_' !in r
  {
    if |s| > 0 && s[0] == c then LStrip(s[1..], c) else s
  }

  /** The number a key is ordered by; None when `int()` would raise. */
  function KeyNumber(kind: KeyKind, key: string): Option<int> {
    var seg := LastSegment(key);
    match kind
    case RoundKey => ParseInt(seg)
    case TurnKey =>
      ParseInt(LStrip(seg, 'P'))
  }

  /** The numbers of all keys under `num`, or None as soon as one key has
      none. */
  function Numbers(num: string -> Option<int>, keys: seq<string>): (r: Option<seq<int>>)
    ensures r.Some? <==> forall i :: 0 <= i < |keys| ==> num(keys[i]).Some?
    ensures r.Some? ==> |r.value| == |keys|
    ensures r.Some? ==> forall i :: 0 <= i < |keys| ==> r.value[i] == num(keys[i]).value
  {
    if |keys| == 0 then Some([])
    else
      var tail := keys[1..];
      assert forall i :: 0 <= i < |tail| ==> tail[i] == keys[i + 1];
      match num(keys[0])
      case None => None
      case Some(n) =>
        match Numbers(num, tail)
        case None => None
        case Some(rest) => Some([n] + rest)
  }

  /** `max(keys, key=num)`: the index of the first key with the greatest
      number.  None when there are no keys or any key has no number: `max`
      applies the key function to every element, so one bad key raises. */
  function MaxBy(num: string -> Option<int>, keys: seq<string>): (r: Option<nat>)
    ensures r.Some? <==> |keys| > 0 && forall i :: 0 <= i < |keys| ==> num(keys[i]).Some?
    ensures r.Some? ==>
      && r.value < |keys|
      && (forall j :: 0 <= j < |keys| ==> num(keys[j]).value <= num(keys[r.value]).value)
      && (forall j :: 0 <= j < r.value ==> num(keys[j]).value < num(keys[r.value]).value)
  {
    match Numbers(num, keys)
    case None => None
    case Some(ns) =>
      if |ns| == 0 then None
      else
        var i := FirstMax(ns);
        assert forall j :: 0 <= j < |keys| ==> ns[j] == num(keys[j]).value;
        Some(i)
  }

  /** The ordering function of one kind of key. */
  function Order(kind: KeyKind): string -> Option<int> {
    key => KeyNumber(kind, key)
  }

  /** The last round or turn of a trace level: the first key with the
      greatest number, compared numerically.  None when the level is empty
      or any key's suffix is not an integer. */
  function SelectLast(kind: KeyKind, keys: seq<string>): (r: Option<nat>)
    ensures r.Some? <==> |keys| > 0 && forall i :: 0 <= i < |keys| ==> KeyNumber(kind, keys[i]).Some?
    ensures r.Some? ==>
      && r.value < |keys|
      && (forall j :: 0 <= j < |keys| ==> KeyNumber(kind, keys[j]).value <= KeyNumber(kind, keys[r.value]).value)
      && (forall j :: 0 <= j < r.value ==> KeyNumber(kind, keys[j]).value < KeyNumber(kind, keys[r.value]).value)
  {
    MaxBy(Order(kind), keys)
  }

  /** `level[max(level, key=num)]`: the value under the first key with the
      greatest number.  None when `max` raises. */
  function EntryUnder<V>(num: string -> Option<int>, level: seq<(string, V)>): (r: Option<V>)
    ensures r.Some? <==> |level| > 0 && forall i :: 0 <= i < |level| ==> num(level[i].0).Some?
    ensures r.Some? ==> exists i ::
      && 0 <= i < |level| && level[i].1 == r.value
      && (forall j :: 0 <= j < |level| ==> num(level[j].0).value <= num(level[i].0).value)
      && (forall j :: 0 <= j < i ==> num(level[j].0).value < num(level[i].0).value)
  {
    MaxByOnLevel(num, level);
    match MaxBy(num, Keys(level))
    case None => None
    case Some(i) => Some(level[i].1)
  }

  /** MaxBy over a level's keys, restated on the level's entries. */
  lemma MaxByOnLevel<V>(num: string -> Option<int>, level: seq<(string, V)>)
    ensures MaxBy(num, Keys(level)).Some? <==> |level| > 0 && forall i :: 0 <= i < |level| ==> num(level[i].0).Some?
    ensures MaxBy(num, Keys(level)).Some? ==>
      var i := MaxBy(num, Keys(level)).value;
      && i < |level|
      && (forall j :: 0 <= j < |level| ==> num(level[j].0).value <= num(level[i].0).value)
      && (forall j :: 0 <= j < i ==> num(level[j].0).value < num(level[i].0).value)
  {
    assert forall j :: 0 <= j < |level| ==> Keys(level)[j] == level[j].0;
  }

  /** The entry of a trace level under its last key is the one at the
      index SelectLast picks. */
  lemma LastEntryIsSelected<V>(kind: KeyKind, level: seq<(string, V)>, i: nat)
    requires i < |level| && SelectLast(kind, Keys(level)) == Some(i)
    ensures EntryUnder(Order(kind), level) == Some(level[i].1)
  {
  }

  lemma {:induction false} LastSegmentAfterUnderscore(prefix: string, seg: string)
    requires '_' !in seg
    ensures LastSegment(prefix + "_" + seg) == seg
  {
    if |seg| == 0 {
      assert prefix + "_" + seg == prefix + "_";
    } else {
      var s := prefix + "_" + seg;
      assert s[..|s| - 1] == prefix + "_" + seg[..|seg| - 1];
      LastSegmentAfterUnderscore(prefix, seg[..|seg| - 1]);
      assert seg == seg[..|seg| - 1] + [seg[|seg| - 1]];
    }
  }

  /** A key's number is read from its text after the final `_` alone:
      replacing everything before that underscore leaves it unchanged. */
  lemma KeyNumberIgnoresPrefix(kind: KeyKind, prefix: string, key: string)
    ensures KeyNumber(kind, prefix + "_" + LastSegment(key)) == KeyNumber(kind, key)
  {
    LastSegmentAfterUnderscore(prefix, LastSegment(key));
  }

  /** A round key `<prefix>_<n>` is ordered by `n`. */
  lemma RoundKeyNumber(prefix: string, n: int)
    ensures KeyNumber(RoundKey, prefix + "_" + IntToString(n)) == Some(n)
  {
    LastSegmentAfterUnderscore(prefix, IntToString(n));
    ParseIntRoundTrip(n);
  }

  /** A turn key `<prefix>_P<n>` (any number of `P`s) is ordered by `n`. */
  lemma TurnKeyNumber(prefix: string, ps: nat, n: int)
    ensures KeyNumber(TurnKey, prefix + "_" + seq(ps, _ => 'P') + IntToString(n)) == Some(n)
  {
    var digits := IntToString(n);
    var seg := seq(ps, _ => 'P') + digits;
    assert prefix + "_" + seq(ps, _ => 'P') + digits == prefix + "_" + seg;
    assert '_' !in seg by {
      forall i | 0 <= i < |seg| ensures seg[i] != '_' {
        if i >= ps { assert seg[i] == digits[i - ps]; }
      }
    }
    LastSegmentAfterUnderscore(prefix, seg);
    LStripRun(ps, digits);
    ParseIntRoundTrip(n);
  }

  lemma {:induction false} LStripRun(ps: nat, digits: string)
    requires |digits| > 0 && digits[0] != 'P'
    ensures LStrip(seq(ps, _ => 'P') + digits, 'P') == digits
  {
    if ps > 0 {
      var s := seq(ps, _ => 'P') + digits;
      assert s[1..] == seq(ps - 1, _ => 'P') + digits;
      LStripRun(ps - 1, digits);
    } else {
      assert seq(ps, _ => 'P') + digits == digits;
    }
  }

  /** Of two keys, `max` picks the one with the greater number. */
  lemma LaterKeySelected(num: string -> Option<int>, k0: string, k1: string, n0: int, n1: int)
    requires num(k0) == Some(n0) && num(k1) == Some(n1)
    requires n0 < n1
    ensures MaxBy(num, [k0, k1]) == Some(1)
  {
    var keys := [k0, k1];
    assert keys[0] == k0 && keys[1] == k1;
    var r := MaxBy(num, keys);
    assert num(keys[1]).value <= num(keys[r.value]).value;
  }

  /** Of two round keys the later one is the one with the greater number. */
  lemma LaterRoundSelected(k0: string, k1: string, n0: int, n1: int)
    requires KeyNumber(RoundKey, k0) == Some(n0) && KeyNumber(RoundKey, k1) == Some(n1)
    requires n0 < n1
    ensures SelectLast(RoundKey, [k0, k1]) == Some(1)
  {
    LaterKeySelected(Order(RoundKey), k0, k1, n0, n1);
  }

  /** The selection is numeric, not lexicographic: of `round_9` and
      `round_10` the later round is `round_10`, although "round_9" is the
      greater text. */
  lemma NumericNotLexicographic()
    ensures SelectLast(RoundKey, ["round_9", "round_10"]) == Some(1)
  {
    assert NatToDigits(9) == "9";
    assert NatToDigits(1) == "1" && NatToDigits(0) == "0";
    assert NatToDigits(10) == "10";
    assert "round_9" == "round" + "_" + IntToString(9);
    assert "round_10" == "round" + "_" + IntToString(10);
    RoundKeyNumber("round", 9);
    RoundKeyNumber("round", 10);
    LaterRoundSelected("round_9", "round_10", 9, 10);
  }

  /** A key whose suffix is not a number makes the whole selection fail,
      wherever it sits. */
  lemma NonNumericSuffixFails(keys: seq<string>, i: nat, kind: KeyKind)
    requires i < |keys| && KeyNumber(kind, keys[i]).None?
    ensures SelectLast(kind, keys).None?
  {
  }

  /** The selection agrees with the index `max` scans to over the keys'
      numbers: it is the first maximum of that list. */
  lemma SelectLastIsFirstMax(kind: KeyKind, keys: seq<string>)
    requires SelectLast(kind, keys).Some?
    ensures Numbers(Order(kind), keys).Some?
    ensures IsFirstMax(Numbers(Order(kind), keys).value, SelectLast(kind, keys).value)
  {
  }
}

=== FILE: vs_random.dfy ===
/** The driver of `benchmark_vs_random.py`: for each of the four seats,
    `n_matches` games against three random agents, folded into per-seat win
    counters and overall totals, then summarised. */
module VsRandom {
  import opened Wrappers
  import opened Standings
  import opened MatchRunner
  import opened Aggregate
  import opened Arith

  /** `n_matches`: games per seat. */
  const MatchesPerSeat := 1000

  /** One game at seat `pos`: game `m` of the seat gets its own draw of the
      engine's randomness. */
  function Game<A, V>(pos: nat, m: nat, cls: A, params: Option<Params<V>>, random: A,
                      engine: Engine<A, V>): (o: Outcome)
    ensures ValidOutcome(o)
  {
    SimulateVsRandom(pos, cls, params, random, engine, 4 * m + pos)
  }

  /** The outcomes of the first `n` games at seat `pos`, in submission
      order. */
  function SeatOutcomes<A, V>(pos: nat, n: nat, cls: A, params: Option<Params<V>>, random: A,
                              engine: Engine<A, V>): (os: seq<Outcome>)
    ensures |os| == n
    ensures forall m :: 0 <= m < n ==> ValidOutcome(os[m])
    decreases n
  {
    if n == 0 then []
    else SeatOutcomes(pos, n - 1, cls, params, random, engine) + [Game(pos, n - 1, cls, params, random, engine)]
  }

  /** The games of the four seats, seat `p` at index `p`. */
  function Games<A, V>(n: nat, cls: A, params: Option<Params<V>>, random: A, engine: Engine<A, V>): (games: seq<seq<Outcome>>)
    ensures |games| == 4
    ensures forall p :: 0 <= p < 4 ==> games[p] == SeatOutcomes(p, n, cls, params, random, engine)
  {
    seq(4, p requires 0 <= p < 4 => SeatOutcomes(p, n, cls, params, random, engine))
  }

  /** The games of the first seats, seat after seat. */
  function Flatten(games: seq<seq<Outcome>>): seq<Outcome>
    decreases |games|
  {
    if |games| == 0 then [] else Flatten(games[..|games| - 1]) + games[|games| - 1]
  }

  function Sum(xs: seq<int>): int
    decreases |xs|
  {
    if |xs| == 0 then 0 else Sum(xs[..|xs| - 1]) + xs[|xs| - 1]
  }

  /** One seat's loop: fold its outcomes in completion order into that
      seat's win counter and the running totals. */
  method PlaySeat(outcomes: seq<Outcome>, wins0: int, totals0: Counters)
    returns (wins: int, totals: Counters)
    ensures wins == wins0 + Total(outcomes).wins
    ensures totals == Plus(totals0, Total(outcomes))
  {
    wins, totals := wins0, totals0;
    var j := 0;
    while j < |outcomes|
      invariant 0 <= j <= |outcomes|
      invariant wins == wins0 + Total(outcomes[..j]).wins
      invariant totals == Plus(totals0, Total(outcomes[..j]))
    {
      TotalConcat(outcomes[..j], [outcomes[j]]);
      assert outcomes[..j + 1] == outcomes[..j] + [outcomes[j]];
      var o := outcomes[j];
      wins := wins + o.victory;
      totals := Add(totals, o);
      j := j + 1;
    }
    assert outcomes[..j] == outcomes;
  }

  /** The per-agent evaluation: the four seats in turn, each seat's games
      folded as they complete.  `completion` is the order `as_completed`
      hands a seat's games back in; the caller promises only that it
      returns each of them once.  Seat `p`'s counter is the `p`-th entry of
      `positionWins`. */
  method EvaluateSeats(games: seq<seq<Outcome>>, completion: (nat, seq<Outcome>) -> seq<Outcome>)
    returns (positionWins: seq<int>, totals: Counters, played: nat)
    requires forall p: nat, b :: multiset(completion(p, b)) == multiset(b)
    ensures |positionWins| == |games|
    ensures forall p :: 0 <= p < |games| ==> positionWins[p] == Total(games[p]).wins
    ensures totals == Total(Flatten(games))
    ensures totals.wins == Sum(positionWins)
    ensures played == |Flatten(games)|
  {
    positionWins := [];
    totals := Zero;
    played := 0;
    var pos := 0;
    while pos < |games|
      invariant 0 <= pos <= |games|
      invariant |positionWins| == pos
      invariant forall p :: 0 <= p < pos ==> positionWins[p] == Total(games[p]).wins
      invariant totals == Total(Flatten(games[..pos]))
      invariant totals.wins == Sum(positionWins)
      invariant played == |Flatten(games[..pos])|
    {
      var arrived := completion(pos, games[pos]);
      SeatStep(games, pos, arrived);
      var w, t := PlaySeat(arrived, 0, totals);
      SumAppend(positionWins, w);
      positionWins := positionWins + [w];
      totals := t;
      played := played + |arrived|;
      pos := pos + 1;
    }
    assert games[..pos] == games;
  }

  /** Folding one seat's games, in any completion order, extends the totals
      and the count by that seat's games. */
  lemma SeatStep(games: seq<seq<Outcome>>, pos: nat, arrived: seq<Outcome>)
    requires pos < |games|
    requires multiset(arrived) == multiset(games[pos])
    ensures Total(arrived) == Total(games[pos])
    ensures Total(Flatten(games[..pos + 1])) == Plus(Total(Flatten(games[..pos])), Total(arrived))
    ensures |Flatten(games[..pos + 1])| == |Flatten(games[..pos])| + |arrived|
  {
    TotalPermutation(arrived, games[pos]);
    assert games[..pos + 1][..pos] == games[..pos];
    TotalConcat(Flatten(games[..pos]), games[pos]);
    assert |arrived| == |multiset(arrived)| == |multiset(games[pos])| == |games[pos]|;
  }

  lemma SumAppend(xs: seq<int>, x: int)
    ensures Sum(xs + [x]) == Sum(xs) + x
  {
    assert (xs + [x])[..|xs|] == xs;
  }

  /** The printed summary of one agent. */
  datatype Report = Report(percentages: seq<real>, matches: nat, ratio: real, avgPoints: real, meanRank: real)

  /** The summary arithmetic; None is the ZeroDivisionError raised when the
      seat games number zero. */
  function Summarise(positionWins: seq<int>, totals: Counters, n: nat): (r: Option<Report>)
    ensures r.None? <==> n == 0
    ensures r.Some? ==>
      && |r.value.percentages| == |positionWins|
      && (forall p :: 0 <= p < |positionWins| ==> r.value.percentages[p] * n as real == (100 * positionWins[p]) as real)
      && r.value.matches == 4 * n
      && r.value.ratio * r.value.matches as real == totals.wins as real
      && r.value.avgPoints * r.value.matches as real == totals.points as real
      && r.value.meanRank * r.value.matches as real == totals.rankSum as real
  {
    if n == 0 then None
    else
      var matches := n * 4;
      Some(Report(
        seq(|positionWins|, p requires 0 <= p < |positionWins| => (100 * positionWins[p]) as real / n as real),
        matches,
        totals.wins as real / matches as real,
        totals.points as real / matches as real,
        totals.rankSum as real / matches as real))
  }

  /** The summary's ranges: every seat percentage in [0, 100] and the win
      ratio in [0, 1] once the counters are in range, and the mean place in
      [1, 4] once the place sum is. */
  lemma SummaryBounds(positionWins: seq<int>, totals: Counters, n: nat)
    requires n > 0
    requires forall p :: 0 <= p < |positionWins| ==> 0 <= positionWins[p] <= n
    requires 0 <= totals.wins <= 4 * n
    ensures var r := Summarise(positionWins, totals, n).value;
      && 0.0 <= r.ratio <= 1.0
      && (forall p :: 0 <= p < |positionWins| ==> 0.0 <= r.percentages[p] <= 100.0)
      && (4 * n <= totals.rankSum <= 4 * (4 * n) ==> 1.0 <= r.meanRank <= 4.0)
  {
    var r := Summarise(positionWins, totals, n).value;
    forall p | 0 <= p < |positionWins| ensures 0.0 <= r.percentages[p] <= 100.0 {
      ShareBounds(100 * positionWins[p], 100 * n, n);
      Scaled(100, n);
    }
    ShareBounds(totals.wins, 4 * n, 4 * n);
    Scaled(1, 4 * n);
    if 4 * n <= totals.rankSum <= 4 * (4 * n) {
      ShareBounds(4 * n, totals.rankSum, 4 * n);
      ShareBounds(totals.rankSum, 4 * (4 * n), 4 * n);
      Scaled(4, 4 * n);
    }
  }

  lemma {:induction false} FlattenLength(games: seq<seq<Outcome>>, n: nat)
    requires forall p :: 0 <= p < |games| ==> |games[p]| == n
    ensures |Flatten(games)| == |games| * n
    decreases |games|
  {
    if |games| > 0 {
      FlattenLength(games[..|games| - 1], n);
      MulSucc(|games| - 1, n);
    }
  }

  lemma {:induction false} FlattenValid(games: seq<seq<Outcome>>)
    requires forall p, m :: 0 <= p < |games| && 0 <= m < |games[p]| ==> ValidOutcome(games[p][m])
    ensures forall m :: 0 <= m < |Flatten(games)| ==> ValidOutcome(Flatten(games)[m])
    decreases |games|
  {
    if |games| > 0 {
      var init := games[..|games| - 1];
      var last := games[|games| - 1];
      FlattenValid(init);
      var all := Flatten(init) + last;
      forall m | 0 <= m < |all| ensures ValidOutcome(all[m]) {
        if m >= |Flatten(init)| {
          assert all[m] == last[m - |Flatten(init)|];
        }
      }
    }
  }

  /** The whole evaluation of one agent against three random agents: each
      seat's win count is at most `n_matches`, the seats add up to the total
      wins, `total_partidas` is the number of games played, the win ratio
      and every seat percentage lie in their ranges, and the mean place lies
      in [1, 4] whenever every game's place does. */
  method Evaluate<A, V>(n: nat, cls: A, params: Option<Params<V>>, random: A, engine: Engine<A, V>,
                        completion: (nat, seq<Outcome>) -> seq<Outcome>)
    returns (positionWins: seq<int>, totals: Counters, played: nat, report: Option<Report>)
    requires forall p: nat, b :: multiset(completion(p, b)) == multiset(b)
    ensures |positionWins| == 4
    ensures forall p :: 0 <= p < 4 ==> 0 <= positionWins[p] <= n
    ensures Sum(positionWins) == totals.wins
    ensures played == 4 * n
    ensures forall p :: 0 <= p < 4 ==> positionWins[p] == Total(SeatOutcomes(p, n, cls, params, random, engine)).wins
    ensures totals == Total(Flatten(Games(n, cls, params, random, engine)))
    ensures report == Summarise(positionWins, totals, n)
    ensures report.None? <==> n == 0
    ensures report.Some? ==>
      && report.value.matches == played
      && 0.0 <= report.value.ratio <= 1.0
      && |report.value.percentages| == 4
      && (forall p :: 0 <= p < 4 ==> 0.0 <= report.value.percentages[p] <= 100.0)
    ensures report.Some? && (forall p, m :: 0 <= p < 4 && 0 <= m < n ==>
                               SeatOutcomes(p, n, cls, params, random, engine)[m].rank <= 4) ==>
      1.0 <= report.value.meanRank <= 4.0
  {
    var games := Games(n, cls, params, random, engine);
    positionWins, totals, played := EvaluateSeats(games, completion);
    FlattenLength(games, n);
    report := Summarise(positionWins, totals, n);
    ReportRanges(games, n, positionWins, totals);
  }

  /** The ranges of one agent's evaluation, from the four seats' `n` valid
      games each: every seat counter lies in [0, n], and the summary's
      ratio, percentages and mean place lie in their ranges. */
  lemma ReportRanges(games: seq<seq<Outcome>>, n: nat, positionWins: seq<int>, totals: Counters)
    requires |games| == 4 && |positionWins| == 4
    requires forall p :: 0 <= p < 4 ==> |games[p]| == n
    requires forall p, m :: 0 <= p < 4 && 0 <= m < n ==> ValidOutcome(games[p][m])
    requires forall p :: 0 <= p < 4 ==> positionWins[p] == Total(games[p]).wins
    requires totals == Total(Flatten(games))
    ensures forall p :: 0 <= p < 4 ==> 0 <= positionWins[p] <= n
    ensures var report := Summarise(positionWins, totals, n);
      report.Some? ==>
        && 0.0 <= report.value.ratio <= 1.0
        && (forall p :: 0 <= p < 4 ==> 0.0 <= report.value.percentages[p] <= 100.0)
    ensures var report := Summarise(positionWins, totals, n);
      report.Some? && (forall p, m :: 0 <= p < 4 && 0 <= m < n ==> games[p][m].rank <= 4) ==>
        1.0 <= report.value.meanRank <= 4.0
  {
    forall p | 0 <= p < 4 ensures 0 <= positionWins[p] <= n {
      TotalBounds(games[p]);
    }
    FlattenLength(games, n);
    FlattenValid(games);
    TotalBounds(Flatten(games));
    if n > 0 {
      SummaryBounds(positionWins, totals, n);
      if forall p, m :: 0 <= p < 4 && 0 <= m < n ==> games[p][m].rank <= 4 {
        FlattenRanks(games);
      }
    }
  }

  lemma {:induction false} FlattenRanks(games: seq<seq<Outcome>>)
    requires forall p, m :: 0 <= p < |games| && 0 <= m < |games[p]| ==> games[p][m].rank <= 4
    ensures forall m :: 0 <= m < |Flatten(games)| ==> Flatten(games)[m].rank <= 4
    decreases |games|
  {
    if |games| > 0 {
      var init := games[..|games| - 1];
      var last := games[|games| - 1];
      FlattenRanks(init);
      var all := Flatten(init) + last;
      forall m | 0 <= m < |all| ensures all[m].rank <= 4 {
        if m >= |Flatten(init)| {
          assert all[m] == last[m - |Flatten(init)|];
        }
      }
    }
  }
}

=== FILE: wrappers.dfy ===
/** The optional value used wherever the modelled scripts can raise: `None`
    stands for "an exception escaped this step". */
module Wrappers {

  datatype Option<+T> = None | Some(value: T)
}
